=== FILE: README.md ===
# Song-rating ledger of the radio player, in Dafny

This project models the server and client rules of a small internet-radio web app. Listeners sign in, rate the song now playing with a thumbs up or down, and browse a catalog of songs and playlists. The app ships two interchangeable Express servers: `server.js` on SQLite and `server-postgres.js` on Postgres.

The model covers:

- **The rating ledger.** This is the `ratings` table, keyed by (user, title, artist). It has the four rating routes of both servers:
  - submit;
  - the per-song aggregate with the caller's own vote;
  - the caller's history;
  - delete.

  The two servers differ in how they resubmit. SQLite's `INSERT OR REPLACE` deletes the old row and writes a new one. Postgres's `ON CONFLICT DO UPDATE` keeps the row's id and creation time. Both are modelled, as two submit functions over the same table. The servers also differ in width: Postgres's `VARCHAR(255)` columns refuse longer text with a 500, while SQLite's `TEXT` columns take it.
- **The caller context.** A request's bearer token is reduced to `NoToken | BadToken | Verified(payload)`. The payload is what the token decodes to: the signed claims `{ userId, username }` plus the `iat` and `exp` times the JWT library adds. The model covers the two middlewares: `authenticateToken` (401/403) and `optionalAuth` (falls back to anonymous).
- **The catalog.** Songs and playlists have owner-dependent visibility and owner-stamped creation.
- **The users table.** Registration checks required fields, password length and duplicates. Login accepts a username or an email.
- **The client's pure rules.** These come from `public/script.js`:
  - endpoint choice and token use;
  - the view and filter buttons;
  - `formatDuration`;
  - the four form pre-checks.
- **The rating widget.** This is `handleRating` and `updateRatingDisplay`, written out in `tests/frontend-ratings.test.js`.

Modelling choices:

- Each table is a sequence of rows with explicit invariants:
  - `Ledger.Valid`: one row per key, distinct ids and creation times, ids and times below the counters;
  - `Catalog.Valid`;
  - `Users.Valid`.
- `CURRENT_TIMESTAMP` is a logical clock that advances once per write. Ids come from a counter, like `AUTOINCREMENT` / `SERIAL`.
- Handlers are pure functions from (credential, input, table) to (reply, table). A reply is `Ok(body)` or `Fail(status, error)`.
- JavaScript truthiness and strict equality are written out. A body field is `Option<string>`, where `None` means missing or null, and the `rating` field is a `JsValue`.

Files, in dependency order:

- `values.dfy`: `Option`, `Reply`, `JsValue`.
- `text.dfy`: JS `trim`, UTF-16 `length`, and decimal rendering.
- `auth.dfy`
- `ledger.dfy`
- `history.dfy`
- `rating_routes.dfy`
- `catalog.dfy`
- `users.dfy`
- `client.dfy`
- `rating_client.dfy`

## Model

| member | source | states |
|---|---|---|
| Text.Lead | public/script.js:348 | the leading white-space run ends at the first character that is not JS white space, or at the end of the text |
| Text.Trim | public/script.js:348-350 | the result is the part of the input that starts after the leading white-space run; only JS white space follows it, and neither end of the result is white space |
| Text.TrimEmptyIff | public/script.js:354 | a trimmed field is empty exactly when the field was all white space, which is what the forms' `!username` tests after `.trim()` |
| Text.TrimIdempotent | public/script.js:348-350 | trimming twice is trimming once |
| Text.Utf16Length | server-postgres.js:154 | `password.length` counts UTF-16 code units: one character counts two exactly when it lies beyond the Basic Multilingual Plane; a string counts between its number of characters and twice that, and exactly that for text in the Basic Multilingual Plane |
| Text.Utf16Additive | server-postgres.js:154 | the code units of a concatenation add up; with the one-character case this fixes `length` as one unit per character plus one per character beyond the Basic Multilingual Plane |
| Text.ParseNatToString | public/script.js:675 | the decimal rendering of a number reads back as that number |
| Auth.BearerToken | server.js:128-129 | `authHeader && authHeader.split(' ')[1]` yields a token only when the header has a space, and the token is a non-empty word without spaces |
| Auth.BearerRoundTrip | server.js:128-129 | `header.split(' ')[1]` applied to `Bearer <token>` gives back the token when it has no spaces |
| Auth.Signed | server.js:198-202 | a token signed from `{ userId, username }` with `expiresIn: '24h'` decodes to those claims, issued now and expiring 86400 seconds later |
| Auth.Classify | server.js:127-140 | a request has no token exactly when its header yields no non-empty second word; it is verified exactly when that word passes the token check, with the payload the check returns; otherwise its token is bad |
| Auth.RequireAuth | server.js:127-141 | a request gets through exactly when its token verifies; 401 exactly for a missing token, 403 exactly for a bad one |
| Auth.OptionalAuth | server.js:144-156 | the caller is authenticated exactly when the token verifies, and then as the token's payload; otherwise anonymous and never refused |
| Ledger.Find | server-postgres.js:469 | a key lookup finds a row with exactly that user, title and artist, or reports that none has it |
| Ledger.Without | server.js:569 | DELETE keeps exactly the rows without the key, and removes as many rows as carry the key |
| Ledger.VotesPartition | server.js:82 | thumbs-up count plus thumbs-down count is the total count, because a stored rating is 1 or -1 |
| Ledger.CountIsRaters | server.js:86 | in a valid table every count of a song's rows is a count of distinct users |
| Ledger.KeyCountAtMostOne | server.js:86 | a valid table holds at most one row per (user, title, artist), and one exactly when the lookup finds it |
| Ledger.CountSplit | server.js:497-503 | a song's count is the count without one key's row plus that row's share |
| Ledger.Upsert | server-postgres.js:430-436 | after ON CONFLICT the key's row holds the new vote and stream time; an existing row keeps id, creation time and table size; a new row takes the next SERIAL id and is created now; rows of other keys are untouched |
| Ledger.Replace | server.js:466-469 | after INSERT OR REPLACE the key's row is a brand-new row: next id, created and streamed now; rows of other keys are untouched |
| Ledger.Delete | server.js:568-578 | the table loses exactly the key's rows, and `changes` is how many there were |
| Ledger.UpsertValid | server-postgres.js:94-102 | the Postgres write keeps one row per key and the id and time bounds |
| Ledger.ReplaceValid | server.js:77-86 | the SQLite write keeps one row per key and the id and time bounds |
| Ledger.DeleteValid | server.js:568-570 | a delete keeps the table invariant |
| Ledger.Aggregate | server.js:497-503 | the counts satisfy up + down = total, and a song with no rows gets zeros |
| Ledger.AggregateCountsUsers | server-postgres.js:455-460 | in a valid table thumbs-up, thumbs-down and total are the numbers of distinct users voting each way |
| Ledger.UpsertCounts | server-postgres.js:430-436 | a Postgres submission moves the user's vote: every song's count changes by the new vote's share minus the old row's share |
| Ledger.ReplaceCounts | server.js:466-469 | a SQLite submission changes counts in the same way |
| Ledger.BackendsAgreeOnAggregate | server.js:466-469 | after the same submission the two servers report the same aggregate for every song |
| Ledger.DeleteCounts | server-postgres.js:514-520 | a delete takes exactly the deleted row's vote out of every count |
| History.History | server.js:539-557 | the history has one entry per row of the caller, ordered by creation time, newest first |
| History.SortDesc | server.js:546 | the sort is a permutation of its input, ordered by creation time, newest first |
| History.HistoryFaithful | server.js:539-557 | the history is exactly the caller's rows, projected to the five returned columns, with strictly decreasing creation times |
| History.ReplaceMovesToFront | server.js:466-469 | after a SQLite resubmission the song is the first entry of the user's history, created and streamed now |
| History.UpsertKeepsHistoryOrder | server-postgres.js:430-436 | after a Postgres resubmission the user's history has the same songs in the same order with the same creation times; only the resubmitted entry's vote and stream time change |
| RatingRoutes.ParseSubmission | server.js:454-462 | a submission passes exactly when title and artist are non-empty and rating is strictly the number 1 or -1; otherwise 400 |
| RatingRoutes.Label | server.js:485 | the reply says `thumbs_up` exactly for rating 1 and `thumbs_down` exactly for -1 |
| RatingRoutes.Admit | server.js:447-462 | a submission is admitted exactly when the token verifies and the body is valid; failures are 400, 401 or 403, and 400 once the token verifies |
| RatingRoutes.SubmitSqlite | server.js:447-489 | a refused submission leaves the table unchanged; an admitted one is the INSERT OR REPLACE of the caller's key with the label of its vote |
| RatingRoutes.SubmitPostgres | server-postgres.js:414-446 | a refused submission leaves the table unchanged; an admitted one whose title and artist fit the `VARCHAR(255)` columns is the ON CONFLICT upsert of the caller's key with the label of its vote, and a longer one gets the catch's 500 |
| RatingRoutes.BackendsDifferOnlyOnWidth | server-postgres.js:97-98 | the two servers give an admitted submission the same answer, and every song the same aggregate, except when the title or artist is longer than 255 characters: then SQLite stores it and Postgres does not |
| RatingRoutes.LongTitleSplitsBackends | server-postgres.js:442-445 | a 256-character title is stored by SQLite and gets 500 from Postgres, with nothing stored |
| RatingRoutes.OwnRating | server-postgres.js:468-476 | `rows[0]?.rating \|\| null` is the caller's stored vote when a row exists and null otherwise, never left out |
| RatingRoutes.GetRatings | server-postgres.js:449-484 | the reply carries the song's aggregate, and it carries `user_rating` exactly for an authenticated caller with a truthy id, equal to that caller's stored vote or null |
| RatingRoutes.PayloadField | server.js:198-202 | a decoded token has exactly the fields `userId`, `username`, `iat` and `exp`, so `req.user.id` is absent |
| RatingRoutes.SignedFieldsReadBack | server.js:198-202 | a token signed at register or login reads back its signed id and username, expires a day after it was issued, and has no `id` |
| RatingRoutes.GetRatingsSqliteAsWritten | server.js:492-536 | the SQLite route's counts are the same aggregate |
| RatingRoutes.SqliteNeverReportsOwnRating | server.js:494 | the SQLite route never adds `user_rating`, whoever asks |
| RatingRoutes.SqliteLosesOwnRating | server.js:494 | a user who has just voted gets no `user_rating` from SQLite, while the corrected route reports the vote |
| RatingRoutes.MyRatings | server.js:539-557 | the history route answers exactly verified callers, with their own history |
| RatingRoutes.DeleteRating | server.js:560-585 | 401/403 without a verified token, 400 when title or artist is missing, 404 when the caller has no row for the song; otherwise exactly the caller's row for the song is removed and the clock and id counter are kept; failures change nothing |
| RatingRoutes.NothingToDelete | server.js:568-579 | a delete that matches nothing leaves the table as it was and reports 0 changes |
| RatingRoutes.SubmitKeepsValid | server-postgres.js:430-436 | a submission to either server keeps one row per key and the id and time bounds |
| RatingRoutes.DeleteKeepsValid | server.js:568-570 | the delete route keeps the table invariant |
| RatingRoutes.RoutesKeepValid | server.js:86 | every rating route of both servers keeps the table invariant |
| RatingRoutes.PostgresStep | server-postgres.js:414-436 | a verified submission with a non-empty title and artist and a vote of 1 or -1 is exactly the ON CONFLICT upsert of the caller's key when both fit their columns, and leaves the table alone otherwise |
| RatingRoutes.ReadBack | server-postgres.js:449-476 | a caller with a truthy id reads the song's aggregate together with their own stored vote |
| RatingRoutes.UpsertAggregate | server-postgres.js:430-460 | after an upsert the song's total grows by one exactly when the key had no row, and the vote moves from the old row's column to the new vote's column |
| RatingRoutes.SubmitThenAggregate | server-postgres.js:430-476 | after a submission the submitter's aggregate shows the new vote; the total grows only on a first vote, and the vote moves from the old column to the new one |
| RatingRoutes.UnratedSong | server.js:511 | a song nobody rated reads as zero counts with a null or absent own rating, not as an error |
| RatingRoutes.DeleteOnce | server.js:578-579 | after a successful delete the same delete answers 404 and changes nothing |
| RatingRoutes.DeleteOnlyOwnRow | server-postgres.js:515-518 | a delete never removes another user's row or another song's row |
| RatingRoutes.AliceAndBob | server-postgres.js:430-476 | alice up, bob down, then alice down: the counts read 1/0/1, 1/1/2, then 0/2/2, with alice's own vote shown each time, and alice's changed row keeps id 1 and its creation time |
| Catalog.Newest | server-postgres.js:307 | `ORDER BY created_at DESC` lists every row once, newest first |
| Catalog.OwnedBy | server-postgres.js:310 | the owner filter keeps exactly the rows of that owner, in the same order |
| Catalog.List | server-postgres.js:300-318 | anonymous callers get exactly the shared rows; authenticated callers get every row, newest first, with `is_mine` true exactly for their own |
| Catalog.ListMine | server-postgres.js:321-331 | `/my` answers verified callers only, with exactly their own rows, newest first |
| Catalog.OwnerOf | server-postgres.js:342 | the owner of a new row is the caller's id, or null for anonymous callers |
| Catalog.Add | server-postgres.js:345-349 | a created row is appended with a fresh id and the current time, and the table stays valid |
| Catalog.CreateSong | server.js:360-381 | a song without title or artist is refused with 400 and nothing stored; otherwise it is stored with the caller as owner |
| Catalog.CreatePlaylist | server.js:421-442 | a playlist without a name is refused with 400 and nothing stored; otherwise it is stored with the caller as owner |
| Catalog.CreateSongPostgres | server-postgres.js:334-353 | Postgres stores a song exactly when the shared route would and it fits the columns (title, artist, album up to 255 characters, path up to 500, a 32-bit duration); otherwise a checked song gets 500 and nothing is stored |
| Catalog.CreatePlaylistPostgres | server-postgres.js:390-409 | Postgres stores a playlist exactly when the shared route would and its name has at most 255 characters; otherwise a named playlist gets 500 and nothing is stored |
| Catalog.VisibilityPartition | server-postgres.js:306-326 | every row is visible to anonymous callers exactly when it is shared, in a user's `/my` exactly when that user owns it, never both |
| Catalog.CreatedComesFirst | server-postgres.js:307-324 | a new row heads the listing its owner sees first: the shared listing, or the creator's `/my` |
| Users.FirstMatch | server-postgres.js:211-220 | the lookup `username = $1 OR email = $2` returns the first matching row in table order, or reports that none matches |
| Users.OrNull | server-postgres.js:173 | `firstName \|\| null` stores a name only when it is non-empty |
| Users.Register | server.js:162-221 | 400 for a missing field, 400 for a password under 6 UTF-16 units, otherwise success exactly when no user has the username as username or the email as email (409 otherwise); success appends one user with the next id and a token for them; failures change nothing |
| Users.RegisterPostgres | server-postgres.js:147-199 | Postgres answers as the shared route does, except that a registration whose username, email or name is longer than 255 characters gets 500 and changes nothing |
| Users.LongUsernameSplitsBackends | server-postgres.js:55 | a 256-character username is registered by SQLite and refused with 500 by Postgres |
| Users.Login | server-postgres.js:202-253 | 400 for a missing field; success exactly when the first user matching the name as username or email has that password, and the token is theirs; any other case is the same 401; failures change nothing |
| Users.RegisterValid | server-postgres.js:53-56 | registration keeps usernames, emails and ids unique |
| Users.RegisterPostgresValid | server-postgres.js:55-56 | the Postgres registration keeps usernames, emails and ids unique |
| Users.TouchValid | server-postgres.js:230 | setting a last-login time keeps every row's id, username and email, so the table stays valid |
| Users.Touch | server-postgres.js:230 | the last-login update sets the last login of exactly the rows with that id to now and leaves every other row, and the row order, as it was |
| Users.LoginValid | server-postgres.js:230 | the last-login update keeps the table valid |
| Users.RejectionsLookAlike | server-postgres.js:216-227 | an unknown name and a wrong password get identical replies |
| Users.RegisterExclusive | server-postgres.js:160-164 | the corrected check succeeds exactly when the registration would, and neither the new username nor the new email already finds someone at login |
| Users.CollisionAnyOrder | server-postgres.js:160-164 | in whatever order the lookup returns rows, a username equal to an existing user's email makes the name find exactly that user and the new one, whose hashes differ, so one of the two is refused under that name |
| Users.RegisterThenLogin | server-postgres.js:208-227 | after a corrected registration the account logs in by username and by email, and gets its own token |
| Users.CrossFieldCollision | server-postgres.js:160-164 | as written, a username equal to an existing user's email (and no one's username) is accepted, yet logging in with that username and the new password finds the older user and answers 401, while the corrected check refuses it with 409 |
| Client.SongsEndpoint | public/script.js:507-510 | songs come from `/api/songs/my` exactly in the my-songs view with someone signed in, otherwise from `/api/songs` |
| Client.PlaylistsEndpoint | public/script.js:527-530 | playlists come from `/api/playlists/my` exactly in the my-playlists view with someone signed in, otherwise from `/api/playlists` |
| Client.AuthHeader | public/script.js:441-455 | a request carries `Authorization: Bearer <token>` exactly when someone is signed in and the token is non-empty |
| Client.HeaderCarriesToken | public/script.js:448-449 | the server's `split(' ')[1]` finds exactly the token the page stored |
| Client.UpdateAuthUI | public/script.js:275-296 | with nobody signed in the view becomes all; the button classes are left as they were |
| Client.Logout | public/script.js:391-403 | logout clears user and token and sets the view to all, leaving the button classes as they were |
| Client.LogoutLoadsShared | public/script.js:391-403 | after logout both listings load the shared endpoints without a token |
| Client.SwitchView | public/script.js:299-310 | after a switch to v each filter button is active exactly when it names v |
| Client.FormatDuration | public/script.js:672-676 | for a non-negative duration the text is minutes, a colon and two digits; read back, minutes times 60 plus seconds is the duration, with seconds below 60; a negative duration starts with a minus sign, because `Math.floor` rounds the minutes down |
| Client.Clock | public/script.js:675 | the template text shows a minus sign first for negative minutes, and for non-negative minutes with seconds from 0 to 59 reads back as minutes times 60 plus seconds |
| Client.ReadBackParts | public/script.js:675 | `m:ss` built from the digits of the minutes and two digits of the seconds splits back at its third-last character into those two numbers |
| Client.PaddedSeconds | public/script.js:675 | the seconds field is two digits reading back as the remainder |
| Client.JsRem | public/script.js:674 | JavaScript's `%` agrees with the mathematical remainder on non-negatives and keeps the dividend's sign otherwise |
| Client.RegisterForm | public/script.js:345-362 | the form sends nothing exactly when the trimmed username or email or the password is empty, or the password is under 6 units; otherwise it sends the trimmed fields and the password as typed |
| Client.LoginForm | public/script.js:313-322 | the form sends nothing exactly when the trimmed name or the password is empty |
| Client.SongForm | public/script.js:593-607 | the form sends nothing exactly when the trimmed title or artist is empty; album and path are their trimmed text, or null exactly when blank; duration is null when the box is empty or not a number, and otherwise the number `parseInt` read |
| Client.PlaylistForm | public/script.js:625-637 | the form sends nothing exactly when the trimmed name is empty; an empty description becomes null |
| Client.SentRegistrationPassesValidation | public/script.js:354-362 | a registration the form sends is never refused with 400, only possibly with 409 |
| Client.SentLoginPassesValidation | public/script.js:320-322 | a login the form sends is never refused as incomplete |
| Client.SentCatalogEntriesAreStored | public/script.js:604-642 | a song or playlist the forms send is always stored by SQLite |
| Client.SentCatalogEntriesOnPostgres | public/script.js:604-642 | a song or playlist the forms send is stored by Postgres exactly when its trimmed fields fit the columns |
| RatingClient.SongToRate | tests/frontend-ratings.test.js:319-338 | the vote is for `currentSong` when it names a real song, else for the labels when they show one, else for nothing |
| RatingClient.HandleRating | tests/frontend-ratings.test.js:309-371 | signed out: login prompt and no request; no song: an error notice and no request; otherwise the body is exactly the chosen title, artist and rating, each vote button that exists goes disabled then enabled, and the notice names the song or the failure |
| RatingClient.ButtonsComeBack | tests/frontend-ratings.test.js:340-370 | each vote button always ends enabled, and is disabled only when it exists and a request was sent |
| RatingClient.KnownSongVoteIsStored | tests/frontend-ratings.test.js:321-354 | a vote for a song the player knows is stored by SQLite, and by Postgres exactly when title and artist fit its columns |
| RatingClient.EmptyLabelIsRefusedByServer | tests/frontend-ratings.test.js:336-337 | the label fallback sends an empty title as is, and the server refuses it with 400 |
| RatingClient.CountText | tests/frontend-ratings.test.js:402-403 | a missing, null or zero count shows as 0 |
| RatingClient.UpdateRatingDisplay | tests/frontend-ratings.test.js:373-419 | no widget: nothing happens; no song: the widget hides; otherwise it asks about the song and shows, on error both counts read 0, and for a signed-in caller with `user_rating` present up is active exactly for 1 and down exactly for -1; otherwise the buttons keep their state |
| RatingClient.NeverBothActive | tests/frontend-ratings.test.js:405-411 | the two vote buttons are never both active |
| RatingClient.DisplayShowsStoredVote | tests/frontend-ratings.test.js:405-411 | against the Postgres route the buttons show exactly the vote the table holds for the caller |
| RatingClient.SqliteDisplayIsStale | tests/frontend-ratings.test.js:405 | against the SQLite route as written the buttons never change |
| RatingClient.ClickPosts | tests/frontend-ratings.test.js:340-359 | a signed-in thumbs-up on a known song posts exactly its title, artist and 1, and on success names the song and asks for its refresh |
| RatingClient.RefreshShowsUp | tests/frontend-ratings.test.js:405-411 | after the caller's thumbs-up is stored, the refreshed widget shows up active and down inactive |
| RatingClient.ClickThenRefresh | tests/frontend-ratings.test.js:347-359 | against the Postgres route, a thumbs-up click on a known song posts that song with rating 1; when it fits the columns the notice confirms it and the refresh shows thumbs-up active and thumbs-down inactive, otherwise nothing is stored and the notice reports the 500 |

## Left out

- Express plumbing is not modelled: routing, body parsing, CORS, static files, the 404 and error middleware, and the `/health` and profile routes. Each route is a function of (credential, input, table).
- Postgres's column widths are modelled: a value longer than its `VARCHAR` column, or a `duration` outside 32 bits, makes the INSERT fail with the route's 500 (`RatingRoutes.SubmitPostgres`, `Users.RegisterPostgres`, `Catalog.CreateSongPostgres`, `Catalog.CreatePlaylistPostgres`). Every other database or hashing failure is not modelled: a lost connection, a NUL character, which Postgres refuses in text, or bcrypt failing. The model's tables never fail in those ways.
- Catalog.SongFits: Postgres's conversion of a JSON value of the wrong type is not modelled. A non-numeric string, `true` or an object in `duration`, which Postgres would refuse, counts as fitting. So does a number or object in `album` or `file_path`, whose text Postgres would length-check.
- SQL text, the drivers, table creation and migrations are not modelled. The constraints become invariants.
- Requests run one at a time: there are no interleavings and no concurrent uniqueness conflicts.
- bcrypt is modelled as an opaque `Digest(password)` compared by equality. The salt and the 72-byte cut-off are left out.
- JWT signing and verification are a parameter of `Auth.Classify`. Expiry is part of "does not verify".
- Users.Register, Users.Login: the token in the reply is reduced to its signed claims; the wall-clock second the library stamps into it as `iat` is not modelled (`Auth.Signed` gives the decoded shape for any issue time).
- `decodeURIComponent` / `encodeURIComponent` are left out: path segments arrive decoded.
- Wall-clock times are a logical clock.
- Users.FirstMatch: a `SELECT` without `ORDER BY` is read in table (insertion) order, and an `UPDATE` keeps a row in place. Postgres promises no order there. `Users.Login` and `Users.CrossFieldCollision` inherit this. `Users.CollisionAnyOrder` states the collision without it.
- Request-body fields other than `rating` are modelled as a string or missing/null (`Option<string>`), and `Filled` is JavaScript truthiness for those. A non-string JSON value in `song_title`, `title`, `name`, `username` and the like is not modelled. For example, `42` would pass the `!field` test and be stored by the driver, while `0` or `false` would get a 400.
- A timestamp column is a logical tick, not a time of second resolution. Equal `created_at` values, and the order Postgres or SQLite would then pick, are not modelled.
- The counts' wire types are not modelled: node-pg returns `COUNT` as a string. The page reads a count only through `|| 0`, which `RatingClient.CountText` models for numbers.
- The DOM, audio/HLS, modals and notifications of `public/script.js` are not modelled, other than the few page variables `Client.Page` keeps. Also left out:
  - `escapeHtml`, `formatDate` and the rendering functions;
  - `makeRequest`, which the file defines twice (the later definition wins), and `showModal`.
- Client.SongForm takes the result of `parseInt` on the duration box as a parameter (`None` for NaN). `parseInt`'s own string parsing is not modelled.
- Client.FormatDuration: the read-back is stated for non-negative whole seconds, and only the leading minus sign for negative ones. Negative inputs are modelled (`JsRem`), but fractional durations are not.
- RatingClient.HandleRating takes the request's outcome as a parameter, and a failure's message as given. Which message the page's request layer would throw is not modelled.
- RatingClient.UpdateRatingDisplay assumes the count and button elements exist. Only the widget element's absence (`present`) is modelled.
- The `updateDynamicRatingDisplay` hook, and `handleRating`'s calls into the refresh, are reduced to the song the refresh is for (`refresh`).
- `logger.js`, `db-query.js` and `scripts/init-db.js` are not part of this model. They are I/O only.
- The expectations in `tests/ratings.test.js` that differ from the servers are not modelled: status 201, a rating object in the reply, and other message texts. The model follows the servers.
- The `song_id`-keyed ratings schema in `tests/setup.js` is not part of this model. The servers do not use it.

## Findings

| source | as written | input that shows it | evidently intended | confidence | as-written member | corrected member |
|---|---|---|---|---|---|---|
| server.js:494 | the SQLite aggregate reads the caller as `req.user?.id`, but tokens are signed as `{ userId, username }` (server.js:198-202), so `user_id` is always undefined and `user_rating` is never sent | alice (id 1) rates "Ode"/"Joy" up, then asks for its ratings with her token: the reply has no `user_rating` | read `req.user?.userId`, as every other route and the Postgres server (server-postgres.js:451) do, so the caller's vote is reported | high (not executed) | RatingRoutes.GetRatingsSqliteAsWritten, RatingRoutes.SqliteLosesOwnRating | RatingRoutes.GetRatings, RatingRoutes.SubmitThenAggregate |
| server-postgres.js:160-164 | registration refuses a username only if it is someone's username, and an email only if it is someone's email; login looks the typed name up in both columns and takes the first match (server-postgres.js:211-220) | ann has email `bob@mail`; a new user registers with username `bob@mail` and a different password, which is accepted; logging in as `bob@mail` with the new password finds ann first (rows in table order) and answers 401; in any row order, ann or the new user is refused under `bob@mail` | a new username or email must not already identify another account at login | medium (not executed) | Users.Register, Users.CrossFieldCollision, Users.CollisionAnyOrder | Users.RegisterExclusive, Users.RegisterThenLogin |

=== FILE: auth.dfy ===
/** The two authentication middlewares shared by both servers
    (`authenticateToken` and `optionalAuth`). JWT signing and verification are
    not modelled: a token is reduced to the payload it verifies to, if any. */
module Auth {
  import opened Values

  type UserId = nat

  /** What the servers sign into a token at register and login: `{ userId, username }`. */
  datatype Claims = Claims(userId: UserId, username: string)

  /** What a verified token decodes to (`req.user`): the signed claims plus the
      issue and expiry times in seconds, `iat` and `exp`, that the JWT library
      adds when signing. */
  datatype Payload = Payload(userId: UserId, username: string, iat: int, exp: int)

  /** `expiresIn: '24h'`, in seconds. */
  const TokenLifetime: int := 24 * 60 * 60

  /** The object a token decodes to when it was signed from `c` at second
      `now` with `{ expiresIn: '24h' }`. */
  function Signed(c: Claims, now: int): (p: Payload)
    ensures p.userId == c.userId && p.username == c.username
    ensures p.iat == now && p.exp - p.iat == TokenLifetime
  {
    Payload(c.userId, c.username, now, now + TokenLifetime)
  }

  /** The credential of a request once its bearer token has been looked at. */
  datatype Credential = NoToken | BadToken | Verified(payload: Payload)

  /** The caller of an optional-auth route: `req.user` set or not. */
  datatype Caller = Anonymous | Authenticated(payload: Payload)

  /** The prefix of `s` before its first occurrence of `c` (all of `s` if none). */
  function Before(s: string, c: char): (r: string)
    ensures c !in r
    ensures r <= s
    ensures |r| < |s| ==> s[|r|] == c
  {
    if s == [] || s[0] == c then [] else [s[0]] + Before(s[1..], c)
  }

  /** `header && header.split(' ')[1]`, kept only when it is a non-empty string:
      the text between the first and second space of the header. */
  function BearerToken(header: Option<string>): (t: Option<string>)
    ensures t.Some? ==> t.value != "" && ' ' !in t.value
    ensures t.Some? ==> header.Some? && ' ' in header.value
  {
    if header.None? then None
    else
      var h := header.value;
      var scheme := Before(h, ' ');
      if |scheme| == |h| then None
      else
        var token := Before(h[|scheme| + 1..], ' ');
        if token == "" then None else Some(token)
  }

  /** The header the client sends, `Bearer <token>`, yields back exactly its token. */
  lemma BearerRoundTrip(token: string)
    requires token != "" && ' ' !in token
    ensures BearerToken(Some("Bearer " + token)) == Some(token)
  {
    var h := "Bearer " + token;
    assert Before(h, ' ') == "Bearer" by {
      assert h[6] == ' ';
      assert h[..6] == "Bearer";
      assert ' ' !in h[..6];
      BeforeUpTo(h, ' ', 6);
    }
    assert h[7..] == token;
    BeforeAbsent(token, ' ');
  }

  lemma BeforeUpTo(s: string, c: char, k: nat)
    requires k < |s| && s[k] == c && c !in s[..k]
    ensures Before(s, c) == s[..k]
  {
    if k > 0 {
      assert s[0] != c by { assert s[..k][0] == s[0]; }
      assert s[1..][..k - 1] == s[..k][1..];
      BeforeUpTo(s[1..], c, k - 1);
    }
  }

  lemma BeforeAbsent(s: string, c: char)
    requires c !in s
    ensures Before(s, c) == s
  {
    if s != [] {
      assert s[0] in s;
      assert forall i :: 0 <= i < |s[1..]| ==> s[1..][i] in s;
      BeforeAbsent(s[1..], c);
    }
  }

  /** Classifies a request's `Authorization` header, given the token check. */
  function Classify(header: Option<string>, verify: string -> Option<Payload>): (c: Credential)
    ensures c.NoToken? <==> BearerToken(header).None?
    ensures c.Verified? <==> BearerToken(header).Some? && verify(BearerToken(header).value).Some?
    ensures c.Verified? ==> c.payload == verify(BearerToken(header).value).value
  {
    match BearerToken(header)
    case None => NoToken
    case Some(t) => if verify(t).Some? then Verified(verify(t).value) else BadToken
  }

  /** `authenticateToken`: no token is 401, a token that does not verify is
      403, and only a verified token lets the request through. */
  function RequireAuth(c: Credential): (r: Reply<Payload>)
    ensures r.Ok? <==> c.Verified?
    ensures r.Ok? ==> r.body == c.payload
    ensures r.Fail? ==> (r.status == 401 <==> c.NoToken?) && (r.status == 403 <==> c.BadToken?)
  {
    match c
    case NoToken => Fail(401, "Access token required")
    case BadToken => Fail(403, "Invalid or expired token")
    case Verified(p) => Ok(p)
  }

  /** `optionalAuth`: a missing or failing token leaves the caller anonymous. */
  function OptionalAuth(c: Credential): (r: Caller)
    ensures r.Authenticated? <==> c.Verified?
    ensures r.Authenticated? ==> r.payload == c.payload
  {
    match c
    case Verified(p) => Authenticated(p)
    case _ => Anonymous
  }
}

=== FILE: catalog.dfy ===
/** The song and playlist catalogs. Both servers handle the two tables the
    same way: a listing that depends on who asks, a caller-only listing, and
    a create route that records the caller (if any) as owner. The two tables
    differ only in their columns, so one generic table serves both. The one
    difference between the servers is the width of Postgres's columns. */
module Catalog {
  import opened Values
  import opened Auth

  /** A row: its id, its columns, its owner (`user_id`, NULL for a shared
      row) and its creation time. */
  datatype Item<T> = Item(id: nat, data: T, owner: Option<UserId>, createdAt: nat)

  datatype Table<T> = Table(items: seq<Item<T>>, clock: nat, nextId: nat)

  function Empty<T>(): (c: Table<T>)
    ensures Valid(c)
  {
    Table([], 0, 1)
  }

  /** Rows are appended in creation order, each creation at a fresh tick,
      and ids come from a counter that only grows. */
  predicate Valid<T>(c: Table<T>)
  {
    && (forall i, j :: 0 <= i < j < |c.items| ==> c.items[i].createdAt < c.items[j].createdAt)
    && (forall i :: 0 <= i < |c.items| ==> c.items[i].createdAt < c.clock && c.items[i].id < c.nextId)
    && (forall i, j :: 0 <= i < j < |c.items| ==> c.items[i].id != c.items[j].id)
  }

  /** `ORDER BY created_at DESC`, strictly. */
  predicate NewestFirst<T>(s: seq<Item<T>>)
  {
    forall i, j :: 0 <= i < j < |s| ==> s[i].createdAt > s[j].createdAt
  }

  /** The whole table, newest first. */
  function Newest<T(!new)>(c: Table<T>): (r: seq<Item<T>>)
    requires Valid(c)
    ensures |r| == |c.items|
    ensures forall x :: x in r <==> x in c.items
    ensures NewestFirst(r)
  {
    var n := |c.items|;
    var r := seq(n, i requires 0 <= i < n => c.items[n - 1 - i]);
    assert forall x :: x in c.items ==> x in r by {
      forall x | x in c.items
        ensures x in r
      {
        var k :| 0 <= k < n && c.items[k] == x;
        assert r[n - 1 - k] == x;
      }
    }
    r
  }

  /** `WHERE user_id IS NULL` (owner `None`) or `WHERE user_id = $1` (owner `Some(u)`),
      keeping the order. */
  function OwnedBy<T(!new)>(s: seq<Item<T>>, owner: Option<UserId>): (r: seq<Item<T>>)
    ensures forall x :: x in r <==> x in s && x.owner == owner
    ensures NewestFirst(s) ==> NewestFirst(r)
  {
    if s == [] then []
    else
      var rest := OwnedBy(s[1..], owner);
      assert forall x :: x in s <==> x == s[0] || x in s[1..];
      if s[0].owner == owner then
        HeadIsNewest(s);
        PrependNewest(s[0], rest);
        [s[0]] + rest
      else rest
  }

  /** In a list ordered newest first, the head is newer than everything after it. */
  lemma HeadIsNewest<T>(s: seq<Item<T>>)
    requires s != []
    ensures NewestFirst(s) ==> NewestFirst(s[1..]) && forall x :: x in s[1..] ==> x.createdAt < s[0].createdAt
  {
    if NewestFirst(s) {
      forall x | x in s[1..] ensures x.createdAt < s[0].createdAt {
        var k :| 0 <= k < |s[1..]| && s[1..][k] == x;
        assert s[k + 1] == x;
      }
    }
  }

  /** A row newer than every row of a list ordered newest first can go in front of it. */
  lemma PrependNewest<T>(y: Item<T>, rest: seq<Item<T>>)
    ensures NewestFirst(rest) && (forall x :: x in rest ==> x.createdAt < y.createdAt) ==> NewestFirst([y] + rest)
  {
    if NewestFirst(rest) && forall x :: x in rest ==> x.createdAt < y.createdAt {
      var r := [y] + rest;
      forall i, j | 0 <= i < j < |r| ensures r[i].createdAt > r[j].createdAt {
        assert r[j] == rest[j - 1];
        if i > 0 { assert r[i] == rest[i - 1]; } else { assert r[j] in rest; }
      }
    }
  }

  /** A row of an authenticated listing: the row plus `is_mine`, which is
      `CASE WHEN user_id = $1 THEN 1 ELSE 0 END` (a NULL owner gives 0). */
  datatype Marked<T> = Marked(item: Item<T>, isMine: bool)

  /** What `GET /api/songs` and `GET /api/playlists` return. */
  datatype Listing<T> = Shared(rows: seq<Item<T>>) | Everything(marked: seq<Marked<T>>)

  function List<T(!new)>(who: Caller, c: Table<T>): (r: Listing<T>)
    requires Valid(c)
    ensures r.Shared? <==> who.Anonymous?
    ensures r.Shared? ==> NewestFirst(r.rows) && forall x :: x in r.rows <==> x in c.items && x.owner.None?
    ensures r.Everything? ==>
              && |r.marked| == |c.items|
              && NewestFirst(seq(|r.marked|, i requires 0 <= i < |r.marked| => r.marked[i].item))
              && (forall x :: x in c.items <==> exists i :: 0 <= i < |r.marked| && r.marked[i].item == x)
              && (forall i :: 0 <= i < |r.marked| ==>
                    (r.marked[i].isMine <==> r.marked[i].item.owner == Some(who.payload.userId)))
  {
    match who
    case Anonymous => Shared(OwnedBy(Newest(c), None))
    case Authenticated(p) =>
      var n := Newest(c);
      var m := seq(|n|, i requires 0 <= i < |n| => Marked(n[i], n[i].owner == Some(p.userId)));
      assert seq(|m|, i requires 0 <= i < |m| => m[i].item) == n;
      assert forall x :: x in c.items <==> exists i :: 0 <= i < |m| && m[i].item == x by {
        forall x
          ensures x in c.items <==> exists i :: 0 <= i < |m| && m[i].item == x
        {
          if x in c.items {
            var k :| 0 <= k < |n| && n[k] == x;
            assert m[k].item == x;
          }
        }
      }
      Everything(m)
  }

  /** `GET /api/songs/my` and `GET /api/playlists/my`. */
  function ListMine<T(!new)>(cred: Credential, c: Table<T>): (r: Reply<seq<Item<T>>>)
    requires Valid(c)
    ensures r.Ok? <==> cred.Verified?
    ensures r.Fail? ==> r.status in {401, 403}
    ensures r.Ok? ==> NewestFirst(r.body) && forall x :: x in r.body <==> x in c.items && x.owner == Some(cred.payload.userId)
  {
    match RequireAuth(cred)
    case Fail(st, e) => Fail(st, e)
    case Ok(p) => Ok(OwnedBy(Newest(c), Some(p.userId)))
  }

  /** `req.user ? req.user.userId : null`. */
  function OwnerOf(who: Caller): (o: Option<UserId>)
    ensures o.Some? <==> who.Authenticated?
    ensures o.Some? ==> o.value == who.payload.userId
  {
    match who
    case Anonymous => None
    case Authenticated(p) => Some(p.userId)
  }

  /** The INSERT both create routes run: a new row at the end, with the next id
      and the current tick. */
  function Add<T(!new)>(c: Table<T>, data: T, owner: Option<UserId>): (r: (Table<T>, nat))
    requires Valid(c)
    ensures Valid(r.0)
    ensures r.0.items == c.items + [Item(r.1, data, owner, c.clock)]
    ensures forall x :: x in c.items ==> x.id != r.1
  {
    (Table(c.items + [Item(c.nextId, data, owner, c.clock)], c.clock + 1, c.nextId + 1), c.nextId)
  }

  /** Reply of a create route: `{ id, message }`. */
  datatype Created = Created(id: nat, message: string)

  datatype SongBody = SongBody(title: Option<string>, artist: Option<string>,
                               album: JsValue, duration: JsValue, filePath: JsValue)
  datatype Song = Song(title: string, artist: string, album: JsValue, duration: JsValue, filePath: JsValue)

  datatype PlaylistBody = PlaylistBody(name: Option<string>, description: JsValue)
  datatype Playlist = Playlist(name: string, description: JsValue)

  /** `POST /api/songs`: title and artist are required; the rest is stored as sent. */
  function CreateSong(who: Caller, b: SongBody, c: Table<Song>): (r: (Reply<Created>, Table<Song>))
    requires Valid(c)
    ensures Valid(r.1)
    ensures r.0.Fail? <==> !(Filled(b.title) && Filled(b.artist))
    ensures r.0.Fail? ==> r.0 == Fail(400, "Title and artist are required") && r.1 == c
    ensures r.0.Ok? ==>
              r.1.items == c.items + [Item(r.0.body.id, Song(b.title.value, b.artist.value, b.album, b.duration, b.filePath),
                                          OwnerOf(who), c.clock)]
  {
    if !Filled(b.title) || !Filled(b.artist) then (Fail(400, "Title and artist are required"), c)
    else
      var (c', id) := Add(c, Song(b.title.value, b.artist.value, b.album, b.duration, b.filePath), OwnerOf(who));
      (Ok(Created(id, "Song added successfully")), c')
  }

  /** `POST /api/playlists`: a name is required. */
  function CreatePlaylist(who: Caller, b: PlaylistBody, c: Table<Playlist>): (r: (Reply<Created>, Table<Playlist>))
    requires Valid(c)
    ensures Valid(r.1)
    ensures r.0.Fail? <==> !Filled(b.name)
    ensures r.0.Fail? ==> r.0 == Fail(400, "Playlist name is required") && r.1 == c
    ensures r.0.Ok? ==> r.1.items == c.items + [Item(r.0.body.id, Playlist(b.name.value, b.description), OwnerOf(who), c.clock)]
  {
    if !Filled(b.name) then (Fail(400, "Playlist name is required"), c)
    else
      var (c', id) := Add(c, Playlist(b.name.value, b.description), OwnerOf(who));
      (Ok(Created(id, "Playlist created successfully")), c')
  }

  /** The Postgres `songs` columns: `title`, `artist` and `album` are
      `VARCHAR(255)`, `file_path` is `VARCHAR(500)` and `duration` is a 32-bit
      `INTEGER`. Absent or null values always fit. */
  predicate SongFits(x: Song)
  {
    && FitsVarchar(x.title, 255) && FitsVarchar(x.artist, 255)
    && (x.album.Str? ==> FitsVarchar(x.album.s, 255))
    && (x.filePath.Str? ==> FitsVarchar(x.filePath.s, 500))
    && (x.duration.Num? ==> -0x8000_0000 <= x.duration.n < 0x8000_0000)
  }

  /** The Postgres `playlists.name` is `VARCHAR(255)`; the description is `TEXT`. */
  predicate PlaylistFits(x: Playlist)
  {
    FitsVarchar(x.name, 255)
  }

  /** `POST /api/songs` on Postgres: the same check, then an INSERT that fails
      on a value its column cannot hold, answered with 500 and nothing stored. */
  function CreateSongPostgres(who: Caller, b: SongBody, c: Table<Song>): (r: (Reply<Created>, Table<Song>))
    requires Valid(c)
    ensures r.0.Ok? <==> CreateSong(who, b, c).0.Ok? && SongFits(Song(b.title.value, b.artist.value, b.album, b.duration, b.filePath))
    ensures r.0.Ok? ==> r == CreateSong(who, b, c)
    ensures r.0.Fail? ==> r.1 == c
    ensures CreateSong(who, b, c).0.Fail? ==> r.0 == CreateSong(who, b, c).0
    ensures CreateSong(who, b, c).0.Ok? && !SongFits(Song(b.title.value, b.artist.value, b.album, b.duration, b.filePath)) ==>
              r.0 == Fail(500, "Error adding song")
  {
    var r := CreateSong(who, b, c);
    if r.0.Ok? && !SongFits(Song(b.title.value, b.artist.value, b.album, b.duration, b.filePath)) then
      (Fail(500, "Error adding song"), c)
    else r
  }

  /** `POST /api/playlists` on Postgres: a name longer than its column gets 500. */
  function CreatePlaylistPostgres(who: Caller, b: PlaylistBody, c: Table<Playlist>): (r: (Reply<Created>, Table<Playlist>))
    requires Valid(c)
    ensures r.0.Ok? <==> CreatePlaylist(who, b, c).0.Ok? && FitsVarchar(b.name.value, 255)
    ensures r.0.Ok? ==> r == CreatePlaylist(who, b, c)
    ensures r.0.Fail? ==> r.1 == c
    ensures CreatePlaylist(who, b, c).0.Fail? ==> r.0 == CreatePlaylist(who, b, c).0
    ensures CreatePlaylist(who, b, c).0.Ok? && !FitsVarchar(b.name.value, 255) ==> r.0 == Fail(500, "Error creating playlist")
  {
    var r := CreatePlaylist(who, b, c);
    if r.0.Ok? && !PlaylistFits(Playlist(b.name.value, b.description)) then
      (Fail(500, "Error creating playlist"), c)
    else r
  }

  // ---------------------------------------------------------------------
  // Visibility
  // ---------------------------------------------------------------------

  /** Every row is either shared (visible to anonymous callers) or owned by
      exactly one user (visible in that user's `/my` listing), never both. */
  lemma VisibilityPartition<T(!new)>(c: Table<T>, x: Item<T>, u: UserId)
    requires Valid(c) && x in c.items
    ensures x in List(Anonymous, c).rows <==> x.owner.None?
    ensures x in ListMine(Verified(Signed(Claims(u, ""), 0)), c).body <==> x.owner == Some(u)
    ensures !(x in List(Anonymous, c).rows && x in ListMine(Verified(Signed(Claims(u, ""), 0)), c).body)
  {
  }

  /** A freshly created row comes first in its owner's listing: first in the
      anonymous listing when created anonymously, first in `/my` otherwise. */
  lemma CreatedComesFirst<T(!new)>(c: Table<T>, data: T, who: Caller)
    requires Valid(c)
    ensures var (c', id) := Add(c, data, OwnerOf(who));
            var x := Item(id, data, OwnerOf(who), c.clock);
            && (who.Anonymous? ==> List(Anonymous, c').rows[0] == x)
            && (who.Authenticated? ==> ListMine(Verified(who.payload), c').body[0] == x)
  {
    var (c', id) := Add(c, data, OwnerOf(who));
    var x := Item(id, data, OwnerOf(who), c.clock);
    var n := Newest(c');
    assert n[0] == x;
    assert n == [x] + n[1..];
    assert OwnedBy(n, OwnerOf(who)) == [x] + OwnedBy(n[1..], OwnerOf(who));
  }
}

=== FILE: client.dfy ===
/** The browser client's pure rules: which endpoint a listing loads, which
    requests carry the token, how the filter buttons and the view follow
    sign-in, sign-out and view switches, how a duration is shown, and what
    the four forms send. The page is reduced to the few variables these
    rules read and write. */
module Client {
  import opened Values
  import opened Auth
  import Text
  import Users
  import Catalog

  /** `currentView`: which listing the filter buttons select. */
  datatype View = All | MySongs | MyPlaylists

  /** Which filter buttons carry the `active` class. */
  datatype Filters = Filters(mySongs: bool, myPlaylists: bool, all: bool)

  /** The page state the rules read: the signed-in user's name (`currentUser`),
      the stored token (`authToken`), the view and the buttons. */
  datatype Page = Page(user: Option<string>, token: Option<string>, view: View, filters: Filters)

  /** `loadSongs`: the caller's own songs only in the my-songs view with
      someone signed in, the whole listing otherwise. */
  function SongsEndpoint(p: Page): (e: string)
    ensures e == "/api/songs/my" <==> p.view == MySongs && p.user.Some?
    ensures e == "/api/songs" <==> !(p.view == MySongs && p.user.Some?)
  {
    if p.view == MySongs && p.user.Some? then "/api/songs/my" else "/api/songs"
  }

  /** `loadPlaylists`, by the same rule for the my-playlists view. */
  function PlaylistsEndpoint(p: Page): (e: string)
    ensures e == "/api/playlists/my" <==> p.view == MyPlaylists && p.user.Some?
    ensures e == "/api/playlists" <==> !(p.view == MyPlaylists && p.user.Some?)
  {
    if p.view == MyPlaylists && p.user.Some? then "/api/playlists/my" else "/api/playlists"
  }

  /** The `Authorization` header of a listing or create request: with someone
      signed in `makeAuthenticatedRequest` is used, and it adds the header
      when the token is truthy. */
  function AuthHeader(p: Page): (h: Option<string>)
    ensures h.Some? <==> p.user.Some? && Filled(p.token)
    ensures h.Some? ==> h.value == "Bearer " + p.token.value
  {
    if p.user.Some? && Filled(p.token) then Some("Bearer " + p.token.value) else None
  }

  /** What a signed-in page sends is what the servers read back: the server
      finds exactly the stored token in the header (a JWT has no spaces). */
  lemma HeaderCarriesToken(p: Page)
    requires p.user.Some? && Filled(p.token) && ' ' !in p.token.value
    ensures BearerToken(AuthHeader(p)) == p.token
  {
    BearerRoundTrip(p.token.value);
  }

  /** `updateAuthUI`: with nobody signed in the view falls back to all; the
      button classes are not touched. */
  function UpdateAuthUI(p: Page): (q: Page)
    ensures q.user == p.user && q.token == p.token && q.filters == p.filters
    ensures p.user.None? ==> q.view == All
    ensures p.user.Some? ==> q.view == p.view
  {
    if p.user.None? then p.(view := All) else p
  }

  /** `handleLogout`: forget user and token, then the view is all. */
  function Logout(p: Page): (q: Page)
    ensures q.user.None? && q.token.None? && q.view == All
    ensures q.filters == p.filters
  {
    UpdateAuthUI(p.(user := None, token := None)).(view := All)
  }

  /** After sign-out both listings reload the shared content, without a token. */
  lemma LogoutLoadsShared(p: Page)
    ensures SongsEndpoint(Logout(p)) == "/api/songs"
    ensures PlaylistsEndpoint(Logout(p)) == "/api/playlists"
    ensures AuthHeader(Logout(p)).None?
  {
  }

  /** Whether the button of view `v` is active. */
  predicate Active(f: Filters, v: View)
  {
    match v
    case MySongs => f.mySongs
    case MyPlaylists => f.myPlaylists
    case All => f.all
  }

  /** `switchView`: the view changes, and each button is active exactly when
      it names the new view. */
  function SwitchView(p: Page, v: View): (q: Page)
    ensures q.view == v && q.user == p.user && q.token == p.token
    ensures forall w :: Active(q.filters, w) <==> w == v
  {
    p.(view := v, filters := Filters(v == MySongs, v == MyPlaylists, v == All))
  }

  // ---------------------------------------------------------------------
  // formatDuration
  // ---------------------------------------------------------------------

  /** JavaScript's `%`: the remainder takes the sign of the dividend. */
  function JsRem(n: int, d: int): (r: int)
    requires d > 0
    ensures n >= 0 ==> r == n % d
    ensures n < 0 ==> -d < r <= 0 && r == -((-n) % d)
  {
    if n >= 0 then n % d else -((-n) % d)
  }

  /** `String.prototype.padStart(2, '0')`. */
  function PadTwo(s: string): (r: string)
    ensures |s| >= 2 ==> r == s
    ensures |s| < 2 ==> |r| == 2 && r[2 - |s|..] == s && forall i :: 0 <= i < 2 - |s| ==> r[i] == '0'
    decreases 2 - |s|
  {
    if |s| >= 2 then s else PadTwo("0" + s)
  }

  /** `formatDuration(seconds)` for whole seconds: `Math.floor(seconds / 60)`,
      a colon, then `seconds % 60` padded to two characters. For a
      non-negative duration the text reads back: the part before the colon is
      the minutes, the two digits after it the remaining seconds, and together
      they give the duration again. A negative duration shows negative minutes. */
  function FormatDuration(seconds: int): (r: string)
    ensures seconds < 0 ==> |r| > 0 && r[0] == '-'
    ensures seconds >= 0 ==> ReadsBack(r, seconds)
  {
    assert seconds >= 0 ==> (seconds / 60) * 60 + JsRem(seconds, 60) == seconds && JsRem(seconds, 60) < 60;
    Clock(seconds / 60, JsRem(seconds, 60))
  }

  /** `r` has the shape `m:ss`: digits, a colon and two digits, which read
      back as `total` seconds with fewer than 60 after the colon. */
  predicate ReadsBack(r: string, total: int)
  {
    var k := |r| - 3;
    && k >= 1 && r[k] == ':'
    && Text.AllDigits(r[..k]) && Text.AllDigits(r[k + 1..])
    && Text.ParseDigits(r[k + 1..]) < 60
    && Text.ParseDigits(r[..k]) * 60 + Text.ParseDigits(r[k + 1..]) == total
  }

  /** The template `${minutes}:${secs.toString().padStart(2, '0')}`. */
  function Clock(minutes: int, secs: int): (r: string)
    ensures minutes < 0 ==> |r| > 0 && r[0] == '-'
    ensures minutes >= 0 && 0 <= secs < 60 ==> ReadsBack(r, minutes * 60 + secs)
  {
    var m := Text.IntToString(minutes);
    var pad := PadTwo(Text.IntToString(secs));
    if minutes < 0 then
      assert (m + ":" + pad)[0] == m[0];
      m + ":" + pad
    else if secs < 0 || secs >= 60 then
      m + ":" + pad
    else
      Text.ParseNatToString(minutes);
      PaddedSeconds(secs);
      ReadBackParts(m, pad, minutes, secs, minutes * 60 + secs);
      m + ":" + pad
  }

  /** `m:ss`, with `m` the digits of the minutes and `ss` two digits of the
      seconds, splits back at its third-last character. */
  lemma ReadBackParts(m: string, pad: string, minutes: nat, secs: nat, total: nat)
    requires |m| >= 1 && Text.AllDigits(m) && Text.ParseDigits(m) == minutes
    requires |pad| == 2 && Text.AllDigits(pad) && Text.ParseDigits(pad) == secs && secs < 60
    requires minutes * 60 + secs == total
    ensures ReadsBack(m + ":" + pad, total)
  {
    var r := m + ":" + pad;
    assert r[..|m|] == m && r[|m| + 1..] == pad;
  }

  /** The seconds field: two digits that read back as the remainder. */
  lemma PaddedSeconds(n: nat)
    requires n < 60
    ensures var p := PadTwo(Text.NatToString(n));
            |p| == 2 && Text.AllDigits(p) && Text.ParseDigits(p) == n
  {
    var sec := Text.NatToString(n);
    Text.ParseNatToString(n);
    if n < 10 {
      var p := PadTwo(sec);
      assert p == "0" + sec;
      assert p[..1] == "0";
    } else {
      assert |sec| == 2 by {
        assert sec == Text.NatToString(n / 10) + [Text.DigitChar(n % 10)];
      }
    }
  }

  // ---------------------------------------------------------------------
  // Forms
  // ---------------------------------------------------------------------

  /** A form either stops with a notice and sends nothing, or sends a body. */
  datatype Outcome<T> = Blocked(notice: string) | Send(body: T)

  /** An optional text field: trimmed, and left out of the body when empty. */
  function Optional(field: string): (r: Option<string>)
    ensures r.None? <==> Text.Trim(field) == ""
    ensures r.Some? ==> r.value == Text.Trim(field)
  {
    if Text.Trim(field) == "" then None else Some(Text.Trim(field))
  }

  /** `handleRegister`: username and email trimmed, the password as typed. */
  function RegisterForm(username: string, email: string, password: string, firstName: string, lastName: string)
    : (o: Outcome<Users.RegisterBody>)
    ensures o.Blocked? <==> Text.Trim(username) == "" || Text.Trim(email) == "" || password == ""
                            || Text.Utf16Length(password) < 6
    ensures o.Send? ==> o.body == Users.RegisterBody(Some(Text.Trim(username)), Some(Text.Trim(email)), Some(password),
                                                     Optional(firstName), Optional(lastName))
  {
    if Text.Trim(username) == "" || Text.Trim(email) == "" || password == "" then
      Blocked("Please fill in required fields")
    else if Text.Utf16Length(password) < 6 then
      Blocked("Password must be at least 6 characters long")
    else
      Send(Users.RegisterBody(Some(Text.Trim(username)), Some(Text.Trim(email)), Some(password),
                              Optional(firstName), Optional(lastName)))
  }

  /** `handleLogin`: the name trimmed, the password as typed. */
  function LoginForm(username: string, password: string): (o: Outcome<Users.LoginBody>)
    ensures o.Blocked? <==> Text.Trim(username) == "" || password == ""
    ensures o.Send? ==> o.body == Users.LoginBody(Some(Text.Trim(username)), Some(password))
  {
    if Text.Trim(username) == "" || password == "" then Blocked("Please fill in all fields")
    else Send(Users.LoginBody(Some(Text.Trim(username)), Some(password)))
  }

  /** `handleAddSong`. The duration box is sent as `parseInt` of its text
      (`parsed`, `None` for NaN, which JSON writes as null) or null when empty. */
  function SongForm(title: string, artist: string, album: string, duration: string, parsed: Option<int>, filePath: string)
    : (o: Outcome<Catalog.SongBody>)
    ensures o.Blocked? <==> Text.Trim(title) == "" || Text.Trim(artist) == ""
    ensures o.Send? ==> && o.body.title == Some(Text.Trim(title)) && o.body.artist == Some(Text.Trim(artist))
                        && (o.body.album == Null <==> Text.Trim(album) == "")
                        && (o.body.filePath == Null <==> Text.Trim(filePath) == "")
                        && (o.body.duration == Null <==> duration == "" || parsed.None?)
                        && (o.body.duration != Null ==> o.body.duration == Num(parsed.value))
                        && o.body.album == NullIfEmpty(album) && o.body.filePath == NullIfEmpty(filePath)
  {
    var body := Catalog.SongBody(Some(Text.Trim(title)), Some(Text.Trim(artist)), NullIfEmpty(album),
                                 if duration == "" then Null else (match parsed case Some(n) => Num(n) case None => Null),
                                 NullIfEmpty(filePath));
    if Text.Trim(title) == "" || Text.Trim(artist) == "" then Blocked("Please fill in required fields")
    else Send(body)
  }

  /** `field.trim() || null`. */
  function NullIfEmpty(field: string): (v: JsValue)
    ensures v == Null <==> Text.Trim(field) == ""
    ensures v != Null ==> v == Str(Text.Trim(field))
  {
    if Text.Trim(field) == "" then Null else Str(Text.Trim(field))
  }

  /** `handleCreatePlaylist`. */
  function PlaylistForm(name: string, description: string): (o: Outcome<Catalog.PlaylistBody>)
    ensures o.Blocked? <==> Text.Trim(name) == ""
    ensures o.Send? ==> o.body == Catalog.PlaylistBody(Some(Text.Trim(name)), NullIfEmpty(description))
  {
    if Text.Trim(name) == "" then Blocked("Please enter a playlist name")
    else Send(Catalog.PlaylistBody(Some(Text.Trim(name)), NullIfEmpty(description)))
  }

  /** The client's checks cover the server's 400 checks: a registration the
      form sends can only be refused as a duplicate. */
  lemma SentRegistrationPassesValidation(username: string, email: string, password: string,
                                         firstName: string, lastName: string, d: Users.Directory)
    requires RegisterForm(username, email, password, firstName, lastName).Send?
    ensures var r := Users.Register(RegisterForm(username, email, password, firstName, lastName).body, d).0;
            r.Ok? || r == Fail(409, "Username or email already exists")
  {
    var b := RegisterForm(username, email, password, firstName, lastName).body;
    assert b.username == Some(Text.Trim(username)) && b.email == Some(Text.Trim(email)) && b.password == Some(password);
    assert Filled(b.username) && Filled(b.email) && Filled(b.password);
    assert Text.Utf16Length(password) >= 6;
  }

  /** A login the form sends is never refused as incomplete. */
  lemma SentLoginPassesValidation(username: string, password: string, d: Users.Directory)
    requires LoginForm(username, password).Send?
    ensures Users.Login(LoginForm(username, password).body, d).0 != Fail(400, "Username and password are required")
  {
  }

  /** A song or playlist the forms send passes the servers' checks, so SQLite
      always stores it. */
  lemma SentCatalogEntriesAreStored(who: Caller, title: string, artist: string, album: string, duration: string,
                                    parsed: Option<int>, filePath: string, name: string, description: string,
                                    songs: Catalog.Table<Catalog.Song>, lists: Catalog.Table<Catalog.Playlist>)
    requires Catalog.Valid(songs) && Catalog.Valid(lists)
    ensures var o := SongForm(title, artist, album, duration, parsed, filePath);
            o.Send? ==> Catalog.CreateSong(who, o.body, songs).0.Ok?
    ensures var o := PlaylistForm(name, description);
            o.Send? ==> Catalog.CreatePlaylist(who, o.body, lists).0.Ok?
  {
  }

  /** Postgres stores a song or playlist the forms send exactly when its
      trimmed fields fit the columns. */
  lemma SentCatalogEntriesOnPostgres(who: Caller, title: string, artist: string, album: string, duration: string,
                                     parsed: Option<int>, filePath: string, name: string, description: string,
                                     songs: Catalog.Table<Catalog.Song>, lists: Catalog.Table<Catalog.Playlist>)
    requires Catalog.Valid(songs) && Catalog.Valid(lists)
    ensures var o := SongForm(title, artist, album, duration, parsed, filePath);
            o.Send? ==> (Catalog.CreateSongPostgres(who, o.body, songs).0.Ok? <==>
                           Catalog.SongFits(Catalog.Song(Text.Trim(title), Text.Trim(artist), o.body.album, o.body.duration, o.body.filePath)))
    ensures var o := PlaylistForm(name, description);
            o.Send? ==> (Catalog.CreatePlaylistPostgres(who, o.body, lists).0.Ok? <==> FitsVarchar(Text.Trim(name), 255))
  {
    var o := SongForm(title, artist, album, duration, parsed, filePath);
    if o.Send? {
      assert Filled(o.body.title) && Filled(o.body.artist);
    }
    var q := PlaylistForm(name, description);
    if q.Send? {
      assert Filled(q.body.name);
    }
  }
}

=== FILE: history.dfy ===
/** GET /api/ratings/my: a user's ratings, newest first by creation time
    (`ORDER BY created_at DESC`), and how the two back ends' writes move a
    song within that list. */
module History {
  import opened Values
  import opened Ledger

  /** One line of the history: `song_title, song_artist, rating,
      stream_timestamp, created_at`. */
  datatype Entry = Entry(title: string, artist: string, vote: Vote, streamAt: nat, createdAt: nat)

  function Project(r: Row): Entry
  {
    Entry(r.title, r.artist, r.vote, r.streamAt, r.createdAt)
  }

  /** `WHERE user_id = ?`: the user's rows in table order. */
  function OwnRows(rows: seq<Row>, u: UserId): (r: seq<Row>)
    ensures forall q :: q in r <==> q in rows && q.user == u
  {
    if rows == [] then []
    else
      var init := OwnRows(rows[..|rows| - 1], u);
      assert forall q :: q in rows <==> q in rows[..|rows| - 1] || q == rows[|rows| - 1];
      if rows[|rows| - 1].user == u then init + [rows[|rows| - 1]] else init
  }

  predicate SortedDesc(rows: seq<Row>)
  {
    forall i, j :: 0 <= i < j < |rows| ==> rows[i].createdAt >= rows[j].createdAt
  }

  /** Places `x` into a list ordered newest first. */
  function Insert(x: Row, rows: seq<Row>): (r: seq<Row>)
    requires SortedDesc(rows)
    ensures SortedDesc(r)
    ensures multiset(r) == multiset(rows) + multiset{x}
  {
    if rows == [] || x.createdAt >= rows[0].createdAt then [x] + rows
    else
      var rest := Insert(x, rows[1..]);
      InsertBehind(x, rows, rest);
      [rows[0]] + rest
  }

  /** The step of `Insert` that keeps the head: `x` is older than it. */
  lemma InsertBehind(x: Row, rows: seq<Row>, rest: seq<Row>)
    requires rows != [] && SortedDesc(rows) && x.createdAt < rows[0].createdAt
    requires SortedDesc(rest) && multiset(rest) == multiset(rows[1..]) + multiset{x}
    ensures SortedDesc([rows[0]] + rest)
    ensures multiset([rows[0]] + rest) == multiset(rows) + multiset{x}
  {
    assert rows == [rows[0]] + rows[1..];
    var r := [rows[0]] + rest;
    forall j | 0 < j < |r| ensures r[0].createdAt >= r[j].createdAt {
      assert r[j] == rest[j - 1];
      assert r[j] in multiset(rest);
      if r[j] != x {
        assert r[j] in rows[1..];
        var k :| 0 <= k < |rows[1..]| && rows[1..][k] == r[j];
        assert rows[k + 1] == r[j];
      }
    }
  }

  /** `ORDER BY created_at DESC`: the same rows, newest first. */
  function SortDesc(rows: seq<Row>): (r: seq<Row>)
    ensures SortedDesc(r)
    ensures multiset(r) == multiset(rows)
  {
    if rows == [] then []
    else
      assert rows == [rows[0]] + rows[1..];
      Insert(rows[0], SortDesc(rows[1..]))
  }

  /** The reply of GET /api/ratings/my for user `u`: one entry per row of the
      user, newest first. */
  function History(s: Store, u: UserId): (h: seq<Entry>)
    ensures |h| == |OwnRows(s.rows, u)|
    ensures forall i, j :: 0 <= i < j < |h| ==> h[i].createdAt >= h[j].createdAt
  {
    var own := OwnRows(s.rows, u);
    var sorted := SortDesc(own);
    assert |sorted| == |multiset(sorted)| == |multiset(own)| == |own|;
    seq(|sorted|, i requires 0 <= i < |sorted| => Project(sorted[i]))
  }

  // ---------------------------------------------------------------------
  // Contents and strict order in a valid table
  // ---------------------------------------------------------------------

  lemma {:induction false} OwnRowsDistinct(rows: seq<Row>, u: UserId)
    requires Distinct(rows)
    ensures Distinct(OwnRows(rows, u))
  {
    if rows != [] {
      var init := rows[..|rows| - 1];
      var last := rows[|rows| - 1];
      assert rows == init + [last];
      DistinctSplit(init, last);
      OwnRowsDistinct(init, u);
      if last.user == u {
        DistinctSnoc(OwnRows(init, u), last);
      }
    }
  }

  lemma InsertDistinct(x: Row, rows: seq<Row>)
    requires SortedDesc(rows) && Distinct(rows)
    requires forall q :: q in rows ==> Apart(q, x)
    ensures Distinct(Insert(x, rows))
  {
    if rows != [] && x.createdAt < rows[0].createdAt {
      assert forall q :: q in rows[1..] ==> q in rows;
      InsertDistinct(x, rows[1..]);
      InsertDistinctBehind(x, rows);
    } else {
      var r := [x] + rows;
      forall j | 0 < j < |r| ensures Apart(r[0], r[j]) {
        assert r[j] in rows;
      }
    }
  }

  /** The step of `InsertDistinct` that keeps the head. */
  lemma InsertDistinctBehind(x: Row, rows: seq<Row>)
    requires SortedDesc(rows) && Distinct(rows) && rows != [] && x.createdAt < rows[0].createdAt
    requires forall q :: q in rows ==> Apart(q, x)
    requires Distinct(Insert(x, rows[1..]))
    ensures Distinct(Insert(x, rows))
  {
    var rest := Insert(x, rows[1..]);
    var r := [rows[0]] + rest;
    assert Insert(x, rows) == r;
    forall j | 0 < j < |r| ensures Apart(r[0], r[j]) {
      assert r[j] == rest[j - 1];
      assert r[j] in multiset(rest);
      if r[j] != x {
        assert r[j] in rows[1..];
        var k :| 0 <= k < |rows[1..]| && rows[1..][k] == r[j];
        assert Apart(rows[0], rows[k + 1]);
      }
    }
    forall i, j | 0 < i < j < |r| ensures Apart(r[i], r[j]) {
      assert Apart(rest[i - 1], rest[j - 1]);
    }
  }

  lemma {:induction false} SortDistinct(rows: seq<Row>)
    requires Distinct(rows)
    ensures Distinct(SortDesc(rows))
  {
    if rows != [] {
      var tail := rows[1..];
      assert Distinct(tail) by {
        forall i, j | 0 <= i < j < |tail| ensures Apart(tail[i], tail[j]) {
          assert Apart(rows[i + 1], rows[j + 1]);
        }
      }
      SortDistinct(tail);
      forall q | q in SortDesc(tail) ensures Apart(q, rows[0]) {
        assert q in multiset(SortDesc(tail));
        var k :| 0 <= k < |tail| && tail[k] == q;
        assert Apart(rows[0], rows[k + 1]);
      }
      InsertDistinct(rows[0], SortDesc(tail));
    }
  }

  /** In a valid table the history lists exactly the user's ratings, each once,
      strictly newest first. */
  lemma HistoryFaithful(s: Store, u: UserId)
    requires Valid(s)
    ensures forall e :: e in History(s, u) <==> exists r :: r in s.rows && r.user == u && Project(r) == e
    ensures forall i, j :: 0 <= i < j < |History(s, u)| ==> History(s, u)[i].createdAt > History(s, u)[j].createdAt
  {
    HistoryContents(s, u);
    HistoryStrict(s, u);
  }

  /** Sorting neither adds nor drops a row. */
  lemma SortSameMembers(rows: seq<Row>)
    ensures forall q :: q in SortDesc(rows) <==> q in rows
  {
    var r := SortDesc(rows);
    forall q ensures q in r <==> q in rows {
      assert q in r <==> q in multiset(r);
      assert q in rows <==> q in multiset(rows);
    }
  }

  lemma HistoryContents(s: Store, u: UserId)
    ensures forall e :: e in History(s, u) <==> exists r :: r in s.rows && r.user == u && Project(r) == e
  {
    HistoryOnlyOwn(s, u);
    HistoryAllOwn(s, u);
  }

  lemma HistoryOnlyOwn(s: Store, u: UserId)
    ensures forall e :: e in History(s, u) ==> exists r :: r in s.rows && r.user == u && Project(r) == e
  {
    var sorted := SortDesc(OwnRows(s.rows, u));
    SortSameMembers(OwnRows(s.rows, u));
    var h := History(s, u);
    forall e | e in h ensures exists r :: r in s.rows && r.user == u && Project(r) == e {
      var i :| 0 <= i < |h| && h[i] == e;
      assert sorted[i] in sorted;
    }
  }

  lemma HistoryAllOwn(s: Store, u: UserId)
    ensures forall r :: r in s.rows && r.user == u ==> Project(r) in History(s, u)
  {
    var sorted := SortDesc(OwnRows(s.rows, u));
    SortSameMembers(OwnRows(s.rows, u));
    var h := History(s, u);
    forall r | r in s.rows && r.user == u ensures Project(r) in h {
      var i :| 0 <= i < |sorted| && sorted[i] == r;
      assert h[i] == Project(r);
    }
  }

  lemma HistoryStrict(s: Store, u: UserId)
    requires Valid(s)
    ensures forall i, j :: 0 <= i < j < |History(s, u)| ==> History(s, u)[i].createdAt > History(s, u)[j].createdAt
  {
    var own := OwnRows(s.rows, u);
    var sorted := SortDesc(own);
    var h := History(s, u);
    OwnRowsDistinct(s.rows, u);
    SortDistinct(own);
    forall i, j | 0 <= i < j < |h| ensures h[i].createdAt > h[j].createdAt {
      assert Apart(sorted[i], sorted[j]);
    }
  }

  // ---------------------------------------------------------------------
  // SQLite: a resubmitted song moves to the front
  // ---------------------------------------------------------------------

  /** After a SQLite submission the rated song heads the user's history, with
      a creation time equal to the submission's: INSERT OR REPLACE re-creates
      the row even when the user had rated the song before. */
  lemma ReplaceMovesToFront(s: Store, u: UserId, t: string, a: string, v: Vote)
    requires Valid(s)
    ensures History(Replace(s, u, t, a, v), u) != []
    ensures History(Replace(s, u, t, a, v), u)[0] == Entry(t, a, v, s.clock, s.clock)
  {
    var s' := Replace(s, u, t, a, v);
    var added := Row(s.nextId, u, t, a, v, s.clock, s.clock);
    var sorted := SortDesc(OwnRows(s'.rows, u));
    SortSameMembers(OwnRows(s'.rows, u));
    assert added in sorted;
    assert sorted[0].createdAt >= s.clock by {
      var k :| 0 <= k < |sorted| && sorted[k] == added;
    }
    assert sorted[0] == added by {
      assert sorted[0] in s'.rows;
      assert HasKey(sorted[0], u, t, a);
    }
  }

  // ---------------------------------------------------------------------
  // Postgres: a resubmission keeps every history's order
  // ---------------------------------------------------------------------

  lemma RestampCons(x: Row, rows: seq<Row>, u: UserId, t: string, a: string, v: Vote, now: nat)
    ensures Restamp([x] + rows, u, t, a, v, now) == [Stamp(x, u, t, a, v, now)] + Restamp(rows, u, t, a, v, now)
  {
  }

  /** Stamping never changes a row's creation time, so it keeps a list's order. */
  lemma RestampSorted(rows: seq<Row>, u: UserId, t: string, a: string, v: Vote, now: nat)
    requires SortedDesc(rows)
    ensures SortedDesc(Restamp(rows, u, t, a, v, now))
  {
    var rr := Restamp(rows, u, t, a, v, now);
    forall i, j | 0 <= i < j < |rr| ensures rr[i].createdAt >= rr[j].createdAt {
      assert rr[i].createdAt == rows[i].createdAt && rr[j].createdAt == rows[j].createdAt;
    }
  }

  lemma {:induction false} InsertRestamp(x: Row, rows: seq<Row>, u: UserId, t: string, a: string, v: Vote, now: nat)
    requires SortedDesc(rows)
    ensures SortedDesc(Restamp(rows, u, t, a, v, now))
    ensures Insert(Stamp(x, u, t, a, v, now), Restamp(rows, u, t, a, v, now))
         == Restamp(Insert(x, rows), u, t, a, v, now)
  {
    RestampSorted(rows, u, t, a, v, now);
    if rows == [] {
      assert Restamp([x], u, t, a, v, now) == [Stamp(x, u, t, a, v, now)];
    } else if x.createdAt >= rows[0].createdAt {
      InsertRestampFront(x, rows, u, t, a, v, now);
    } else {
      InsertRestamp(x, rows[1..], u, t, a, v, now);
      InsertRestampBehind(x, rows, u, t, a, v, now);
    }
  }

  lemma InsertRestampFront(x: Row, rows: seq<Row>, u: UserId, t: string, a: string, v: Vote, now: nat)
    requires SortedDesc(rows) && rows != [] && x.createdAt >= rows[0].createdAt
    requires SortedDesc(Restamp(rows, u, t, a, v, now))
    ensures Insert(Stamp(x, u, t, a, v, now), Restamp(rows, u, t, a, v, now))
         == Restamp(Insert(x, rows), u, t, a, v, now)
  {
    var rr := Restamp(rows, u, t, a, v, now);
    assert rr[0].createdAt == rows[0].createdAt;
    RestampCons(x, rows, u, t, a, v, now);
  }

  lemma InsertRestampBehind(x: Row, rows: seq<Row>, u: UserId, t: string, a: string, v: Vote, now: nat)
    requires SortedDesc(rows) && rows != [] && x.createdAt < rows[0].createdAt
    requires SortedDesc(Restamp(rows, u, t, a, v, now))
    requires SortedDesc(Restamp(rows[1..], u, t, a, v, now))
    requires Insert(Stamp(x, u, t, a, v, now), Restamp(rows[1..], u, t, a, v, now))
          == Restamp(Insert(x, rows[1..]), u, t, a, v, now)
    ensures Insert(Stamp(x, u, t, a, v, now), Restamp(rows, u, t, a, v, now))
         == Restamp(Insert(x, rows), u, t, a, v, now)
  {
    RestampTail(rows, u, t, a, v, now);
    InsertUnfold(x, rows);
    InsertUnfold(Stamp(x, u, t, a, v, now), Restamp(rows, u, t, a, v, now));
    RestampCons(rows[0], Insert(x, rows[1..]), u, t, a, v, now);
  }

  lemma InsertUnfold(x: Row, rows: seq<Row>)
    requires SortedDesc(rows) && rows != [] && x.createdAt < rows[0].createdAt
    ensures Insert(x, rows) == [rows[0]] + Insert(x, rows[1..])
  {
  }

  lemma RestampTail(rows: seq<Row>, u: UserId, t: string, a: string, v: Vote, now: nat)
    requires rows != []
    ensures Restamp(rows, u, t, a, v, now)[0] == Stamp(rows[0], u, t, a, v, now)
    ensures Restamp(rows, u, t, a, v, now)[1..] == Restamp(rows[1..], u, t, a, v, now)
  {
  }

  lemma {:induction false} SortRestamp(rows: seq<Row>, u: UserId, t: string, a: string, v: Vote, now: nat)
    ensures SortDesc(Restamp(rows, u, t, a, v, now)) == Restamp(SortDesc(rows), u, t, a, v, now)
  {
    if rows != [] {
      var rr := Restamp(rows, u, t, a, v, now);
      assert rr[1..] == Restamp(rows[1..], u, t, a, v, now);
      SortRestamp(rows[1..], u, t, a, v, now);
      InsertRestamp(rows[0], SortDesc(rows[1..]), u, t, a, v, now);
    }
  }

  lemma {:induction false} OwnRowsRestamp(rows: seq<Row>, w: UserId, u: UserId, t: string, a: string, v: Vote, now: nat)
    ensures OwnRows(Restamp(rows, u, t, a, v, now), w) == Restamp(OwnRows(rows, w), u, t, a, v, now)
  {
    if rows != [] {
      var rr := Restamp(rows, u, t, a, v, now);
      var init := rows[..|rows| - 1];
      assert rr[..|rr| - 1] == Restamp(init, u, t, a, v, now);
      OwnRowsRestamp(init, w, u, t, a, v, now);
      var oi := OwnRows(init, w);
      if rows[|rows| - 1].user == w {
        assert Restamp(oi + [rows[|rows| - 1]], u, t, a, v, now)
            == Restamp(oi, u, t, a, v, now) + [Stamp(rows[|rows| - 1], u, t, a, v, now)];
      }
    }
  }

  /** After a Postgres resubmission every user's history lists the same songs
      with the same creation times in the same order; only the resubmitted
      song's rating and stream time change. */
  lemma UpsertKeepsHistoryOrder(s: Store, u: UserId, t: string, a: string, v: Vote, w: UserId)
    requires Find(s.rows, u, t, a).Some?
    ensures |History(Upsert(s, u, t, a, v), w)| == |History(s, w)|
    ensures forall i :: 0 <= i < |History(s, w)| ==>
              var e := History(s, w)[i];
              var e' := History(Upsert(s, u, t, a, v), w)[i];
              && e'.title == e.title && e'.artist == e.artist && e'.createdAt == e.createdAt
              && (if w == u && e.title == t && e.artist == a then e'.vote == v && e'.streamAt == s.clock
                  else e' == e)
  {
    var rows' := Upsert(s, u, t, a, v).rows;
    var sorted := SortDesc(OwnRows(s.rows, w));
    var sorted' := SortDesc(OwnRows(rows', w));
    assert sorted' == Restamp(sorted, u, t, a, v, s.clock) by {
      assert rows' == Restamp(s.rows, u, t, a, v, s.clock);
      OwnRowsRestamp(s.rows, w, u, t, a, v, s.clock);
      SortRestamp(OwnRows(s.rows, w), u, t, a, v, s.clock);
    }
    var h := History(s, w);
    var h' := History(Upsert(s, u, t, a, v), w);
    forall i | 0 <= i < |h|
      ensures h'[i].title == h[i].title && h'[i].artist == h[i].artist && h'[i].createdAt == h[i].createdAt
      ensures if w == u && h[i].title == t && h[i].artist == a then h'[i].vote == v && h'[i].streamAt == s.clock
              else h'[i] == h[i]
    {
      assert sorted[i] in multiset(OwnRows(s.rows, w));
      assert h[i] == Project(sorted[i]);
      assert h'[i] == Project(Stamp(sorted[i], u, t, a, v, s.clock));
    }
  }
}

=== FILE: ledger.dfy ===
/** The `ratings` table shared by both servers: one row per (user, song title,
    song artist), holding a thumbs-up or thumbs-down, a row id and two logical
    timestamps. The table is a sequence of rows in physical (insertion) order;
    the UNIQUE(user_id, song_title, song_artist) constraint is the invariant
    `Valid`, proved to be kept by every write. Wall-clock timestamps are a
    logical clock that advances once per write. */
module Ledger {
  import opened Values
  import Auth

  type UserId = Auth.UserId

  /** A rating: the CHECK (rating IN (-1, 1)) constraint leaves two values. */
  datatype Vote = Up | Down

  /** The integer stored in the `rating` column. */
  function Value(v: Vote): int
  {
    if v == Up then 1 else -1
  }

  /** One row of `ratings`. `createdAt` is set when the row is inserted,
      `streamAt` on every write. */
  datatype Row = Row(id: nat, user: UserId, title: string, artist: string,
                     vote: Vote, createdAt: nat, streamAt: nat)

  /** The table plus the sources of added timestamps and row ids. */
  datatype Store = Store(rows: seq<Row>, clock: nat, nextId: nat)

  /** A freshly created, empty table (ids start at 1). */
  function Empty(): (s: Store)
    ensures Valid(s)
  {
    Store([], 0, 1)
  }

  predicate HasKey(r: Row, u: UserId, t: string, a: string)
  {
    r.user == u && r.title == t && r.artist == a
  }

  /** Two rows may share a table: different key, different id, different creation time. */
  predicate Apart(r: Row, q: Row)
  {
    !HasKey(q, r.user, r.title, r.artist) && r.id != q.id && r.createdAt != q.createdAt
  }

  predicate Distinct(rows: seq<Row>)
  {
    forall i, j :: 0 <= i < j < |rows| ==> Apart(rows[i], rows[j])
  }

  predicate Bounded(s: Store)
  {
    forall r :: r in s.rows ==> r.id < s.nextId && r.createdAt < s.clock && r.streamAt < s.clock
  }

  /** The table invariant: keys (and ids and creation times) are unique, and
      every id and timestamp in use was drawn before the current counters. */
  predicate Valid(s: Store)
  {
    Distinct(s.rows) && Bounded(s)
  }

  // ---------------------------------------------------------------------
  // Lookup, filtering and counting
  // ---------------------------------------------------------------------

  /** `SELECT ... WHERE user_id = ? AND song_title = ? AND song_artist = ?`:
      a row with the key, if the table has one. */
  function Find(rows: seq<Row>, u: UserId, t: string, a: string): (r: Option<Row>)
    ensures r.Some? ==> r.value in rows && HasKey(r.value, u, t, a)
    ensures r.None? ==> forall q :: q in rows ==> !HasKey(q, u, t, a)
  {
    if rows == [] then None
    else if HasKey(rows[|rows| - 1], u, t, a) then Some(rows[|rows| - 1])
    else Find(rows[..|rows| - 1], u, t, a)
  }

  /** Rows with a given key (0 or 1 in a valid table). */
  function CountKey(rows: seq<Row>, u: UserId, t: string, a: string): nat
  {
    if rows == [] then 0
    else CountKey(rows[..|rows| - 1], u, t, a) + (if HasKey(rows[|rows| - 1], u, t, a) then 1 else 0)
  }

  /** `DELETE FROM ratings WHERE user_id = ? AND song_title = ? AND song_artist = ?`:
      the table minus the rows with the key, the rest in their order. */
  function Without(rows: seq<Row>, u: UserId, t: string, a: string): (r: seq<Row>)
    ensures forall q :: q in r <==> q in rows && !HasKey(q, u, t, a)
    ensures |rows| - |r| == CountKey(rows, u, t, a)
  {
    if rows == [] then []
    else
      var init := Without(rows[..|rows| - 1], u, t, a);
      assert forall q :: q in rows <==> q in rows[..|rows| - 1] || q == rows[|rows| - 1];
      if HasKey(rows[|rows| - 1], u, t, a) then init else init + [rows[|rows| - 1]]
  }

  predicate OnSong(r: Row, t: string, a: string)
  {
    r.title == t && r.artist == a
  }

  /** Which rows of a song a count takes: any vote (`COUNT(*)`) or one vote
      (`COUNT(CASE WHEN rating = ... THEN 1 END)`). */
  predicate Counted(r: Row, t: string, a: string, which: Option<Vote>)
  {
    OnSong(r, t, a) && (which.None? || r.vote == which.value)
  }

  function Count(rows: seq<Row>, t: string, a: string, which: Option<Vote>): nat
  {
    if rows == [] then 0
    else Count(rows[..|rows| - 1], t, a, which) + (if Counted(rows[|rows| - 1], t, a, which) then 1 else 0)
  }

  /** Every rating of a song is a thumbs-up or a thumbs-down. */
  lemma {:induction false} VotesPartition(rows: seq<Row>, t: string, a: string)
    ensures Count(rows, t, a, Some(Up)) + Count(rows, t, a, Some(Down)) == Count(rows, t, a, None)
  {
    if rows != [] {
      VotesPartition(rows[..|rows| - 1], t, a);
    }
  }

  /** Dropping the last row keeps a table distinct, and the last row is apart from all others. */
  lemma DistinctSplit(init: seq<Row>, last: Row)
    requires Distinct(init + [last])
    ensures Distinct(init)
    ensures forall q :: q in init ==> Apart(q, last)
  {
    var rows := init + [last];
    assert forall i :: 0 <= i < |init| ==> rows[i] == init[i];
    forall q | q in init ensures Apart(q, last) {
      var i :| 0 <= i < |init| && init[i] == q;
      assert Apart(rows[i], rows[|init|]);
    }
  }

  /** The users whose row for the song is counted. */
  ghost function Raters(rows: seq<Row>, t: string, a: string, which: Option<Vote>): set<UserId>
  {
    set r | r in rows && Counted(r, t, a, which) :: r.user
  }

  /** In a valid table a count of rows is a count of distinct users: each user
      contributes at most one rating to a song. */
  lemma {:induction false} CountIsRaters(rows: seq<Row>, t: string, a: string, which: Option<Vote>)
    requires Distinct(rows)
    ensures Count(rows, t, a, which) == |Raters(rows, t, a, which)|
  {
    if rows != [] {
      var init := rows[..|rows| - 1];
      var last := rows[|rows| - 1];
      assert rows == init + [last];
      DistinctSplit(init, last);
      CountIsRaters(init, t, a, which);
      RatersSnoc(init, last, t, a, which);
    }
  }

  lemma RatersSnoc(init: seq<Row>, last: Row, t: string, a: string, which: Option<Vote>)
    requires forall q :: q in init ==> Apart(q, last)
    ensures Counted(last, t, a, which) ==>
              last.user !in Raters(init, t, a, which)
              && Raters(init + [last], t, a, which) == Raters(init, t, a, which) + {last.user}
    ensures !Counted(last, t, a, which) ==> Raters(init + [last], t, a, which) == Raters(init, t, a, which)
  {
    assert forall q :: q in init + [last] <==> q in init || q == last;
  }

  /** A valid table holds at most one row per key, and holds one exactly when `Find` finds it. */
  lemma {:induction false} KeyCountAtMostOne(rows: seq<Row>, u: UserId, t: string, a: string)
    requires Distinct(rows)
    ensures CountKey(rows, u, t, a) <= 1
    ensures CountKey(rows, u, t, a) == 1 <==> Find(rows, u, t, a).Some?
  {
    if rows != [] {
      assert rows == rows[..|rows| - 1] + [rows[|rows| - 1]];
      DistinctSplit(rows[..|rows| - 1], rows[|rows| - 1]);
      KeyCountAtMostOne(rows[..|rows| - 1], u, t, a);
    }
  }

  /** What one (optional) row adds to a count. */
  function Share(r: Option<Row>, t: string, a: string, which: Option<Vote>): nat
  {
    if r.Some? && Counted(r.value, t, a, which) then 1 else 0
  }

  /** A count over a table with one more row at the end. */
  lemma CountSnoc(rows: seq<Row>, x: Row, t: string, a: string, which: Option<Vote>)
    ensures Count(rows + [x], t, a, which) == Count(rows, t, a, which) + (if Counted(x, t, a, which) then 1 else 0)
  {
    assert (rows + [x])[..|rows|] == rows;
  }

  /** Taking one key's row out of the count: what remains is counted in the
      table without that key. */
  lemma {:induction false} CountSplit(rows: seq<Row>, u: UserId, t: string, a: string,
                                      t': string, a': string, which: Option<Vote>)
    requires Distinct(rows)
    ensures Count(rows, t', a', which)
         == Count(Without(rows, u, t, a), t', a', which)
          + Share(Find(rows, u, t, a), t', a', which)
  {
    if rows != [] {
      var init := rows[..|rows| - 1];
      var last := rows[|rows| - 1];
      assert rows == init + [last];
      DistinctSplit(init, last);
      CountSplit(init, u, t, a, t', a', which);
      CountSnoc(init, last, t', a', which);
      if HasKey(last, u, t, a) {
        assert Find(init, u, t, a).None?;
      } else {
        CountSnoc(Without(init, u, t, a), last, t', a', which);
      }
    }
  }

  // ---------------------------------------------------------------------
  // Writes
  // ---------------------------------------------------------------------

  /** The DO UPDATE SET of the Postgres upsert applied to one row: a row with
      the key gets the new rating and stream time, every other row is untouched. */
  function Stamp(r: Row, u: UserId, t: string, a: string, v: Vote, now: nat): Row
  {
    if HasKey(r, u, t, a) then r.(vote := v, streamAt := now) else r
  }

  function Restamp(rows: seq<Row>, u: UserId, t: string, a: string, v: Vote, now: nat): (r: seq<Row>)
    ensures |r| == |rows|
    ensures forall i :: 0 <= i < |rows| ==> r[i] == Stamp(rows[i], u, t, a, v, now)
  {
    seq(|rows|, i requires 0 <= i < |rows| => Stamp(rows[i], u, t, a, v, now))
  }

  /** Postgres: `INSERT ... ON CONFLICT (user_id, song_title, song_artist)
      DO UPDATE SET rating = EXCLUDED.rating, stream_timestamp = CURRENT_TIMESTAMP`.
      An existing row keeps its id, position and creation time. The SERIAL
      sequence is drawn before the conflict is detected, so `nextId` advances
      on both paths. */
  function Upsert(s: Store, u: UserId, t: string, a: string, v: Vote): (s': Store)
    ensures Find(s'.rows, u, t, a).Some?
    ensures Find(s'.rows, u, t, a).value.vote == v && Find(s'.rows, u, t, a).value.streamAt == s.clock
    ensures Find(s.rows, u, t, a).Some? ==>
              && Find(s'.rows, u, t, a).value.id == Find(s.rows, u, t, a).value.id
              && Find(s'.rows, u, t, a).value.createdAt == Find(s.rows, u, t, a).value.createdAt
              && |s'.rows| == |s.rows|
    ensures Find(s.rows, u, t, a).None? ==>
              && Find(s'.rows, u, t, a).value.id == s.nextId
              && Find(s'.rows, u, t, a).value.createdAt == s.clock
              && |s'.rows| == |s.rows| + 1
    ensures forall q :: !HasKey(q, u, t, a) ==> (q in s'.rows <==> q in s.rows)
    ensures s'.clock > s.clock
  {
    var now := s.clock;
    if Find(s.rows, u, t, a).Some? then
      FindRestamp(s.rows, u, t, a, v, now);
      RestampOthers(s.rows, u, t, a, v, now);
      Store(Restamp(s.rows, u, t, a, v, now), now + 1, s.nextId + 1)
    else
      Store(s.rows + [Row(s.nextId, u, t, a, v, now, now)], now + 1, s.nextId + 1)
  }

  lemma {:induction false} FindRestamp(rows: seq<Row>, u: UserId, t: string, a: string, v: Vote, now: nat)
    requires Find(rows, u, t, a).Some?
    ensures Find(Restamp(rows, u, t, a, v, now), u, t, a)
         == Some(Find(rows, u, t, a).value.(vote := v, streamAt := now))
  {
    var r := Restamp(rows, u, t, a, v, now);
    assert r[..|r| - 1] == Restamp(rows[..|rows| - 1], u, t, a, v, now);
    if !HasKey(rows[|rows| - 1], u, t, a) {
      FindRestamp(rows[..|rows| - 1], u, t, a, v, now);
    }
  }

  lemma RestampOthers(rows: seq<Row>, u: UserId, t: string, a: string, v: Vote, now: nat)
    ensures forall q :: !HasKey(q, u, t, a) ==> (q in Restamp(rows, u, t, a, v, now) <==> q in rows)
  {
    var r := Restamp(rows, u, t, a, v, now);
    forall q | !HasKey(q, u, t, a)
      ensures q in r <==> q in rows
    {
      if q in r {
        var i :| 0 <= i < |r| && r[i] == q;
        assert rows[i] == q;
      }
      if q in rows {
        var i :| 0 <= i < |rows| && rows[i] == q;
        assert r[i] == q;
      }
    }
  }

  /** SQLite: `INSERT OR REPLACE INTO ratings ...`. On a key conflict SQLite
      deletes the old row and inserts a new one, so the row gets a new id,
      a new creation time and the last position. */
  function Replace(s: Store, u: UserId, t: string, a: string, v: Vote): (s': Store)
    ensures Find(s'.rows, u, t, a) == Some(Row(s.nextId, u, t, a, v, s.clock, s.clock))
    ensures forall q :: !HasKey(q, u, t, a) ==> (q in s'.rows <==> q in s.rows)
    ensures s'.clock > s.clock
  {
    var now := s.clock;
    var added := Row(s.nextId, u, t, a, v, now, now);
    var rows' := Without(s.rows, u, t, a) + [added];
    assert rows'[..|rows'| - 1] == Without(s.rows, u, t, a);
    Store(rows', now + 1, s.nextId + 1)
  }

  /** The outcome of a DELETE: the table after it and the number of rows it removed. */
  datatype Removal = Removal(store: Store, changes: nat)

  function Delete(s: Store, u: UserId, t: string, a: string): (r: Removal)
    ensures forall q :: q in r.store.rows <==> q in s.rows && !HasKey(q, u, t, a)
    ensures r.changes == CountKey(s.rows, u, t, a)
    ensures r.store.clock == s.clock && r.store.nextId == s.nextId
  {
    var rest := Without(s.rows, u, t, a);
    Removal(s.(rows := rest), |s.rows| - |rest|)
  }

  // ---------------------------------------------------------------------
  // The invariant is kept by every write
  // ---------------------------------------------------------------------

  lemma DistinctSnoc(rows: seq<Row>, x: Row)
    requires Distinct(rows)
    requires forall q :: q in rows ==> Apart(q, x)
    ensures Distinct(rows + [x])
  {
    var r := rows + [x];
    forall i, j | 0 <= i < j < |r| ensures Apart(r[i], r[j]) {
      if j == |rows| { assert r[i] in rows; }
    }
  }

  lemma {:induction false} WithoutDistinct(rows: seq<Row>, u: UserId, t: string, a: string)
    requires Distinct(rows)
    ensures Distinct(Without(rows, u, t, a))
  {
    if rows != [] {
      var init := rows[..|rows| - 1];
      var last := rows[|rows| - 1];
      assert Distinct(init);
      WithoutDistinct(init, u, t, a);
      if !HasKey(last, u, t, a) {
        forall q | q in Without(init, u, t, a) ensures Apart(q, last) {
          var i :| 0 <= i < |init| && init[i] == q;
          assert Apart(rows[i], rows[|rows| - 1]);
        }
        DistinctSnoc(Without(init, u, t, a), last);
      }
    }
  }

  lemma UpsertValid(s: Store, u: UserId, t: string, a: string, v: Vote)
    requires Valid(s)
    ensures Valid(Upsert(s, u, t, a, v))
  {
    var s' := Upsert(s, u, t, a, v);
    if Find(s.rows, u, t, a).Some? {
      var r := Restamp(s.rows, u, t, a, v, s.clock);
      RestampDistinct(s.rows, u, t, a, v, s.clock);
      forall q | q in r ensures q.id < s'.nextId && q.createdAt < s'.clock && q.streamAt < s'.clock {
        var i :| 0 <= i < |r| && r[i] == q;
        assert s.rows[i] in s.rows;
      }
    } else {
      DistinctSnoc(s.rows, Row(s.nextId, u, t, a, v, s.clock, s.clock));
    }
  }

  /** Stamping changes no key, id or creation time, so a distinct table stays distinct. */
  lemma RestampDistinct(rows: seq<Row>, u: UserId, t: string, a: string, v: Vote, now: nat)
    requires Distinct(rows)
    ensures Distinct(Restamp(rows, u, t, a, v, now))
  {
    var r := Restamp(rows, u, t, a, v, now);
    forall i, j | 0 <= i < j < |r| ensures Apart(r[i], r[j]) {
      assert Apart(rows[i], rows[j]);
    }
  }

  lemma ReplaceValid(s: Store, u: UserId, t: string, a: string, v: Vote)
    requires Valid(s)
    ensures Valid(Replace(s, u, t, a, v))
  {
    var w := Without(s.rows, u, t, a);
    WithoutDistinct(s.rows, u, t, a);
    DistinctSnoc(w, Row(s.nextId, u, t, a, v, s.clock, s.clock));
  }

  lemma DeleteValid(s: Store, u: UserId, t: string, a: string)
    requires Valid(s)
    ensures Valid(Delete(s, u, t, a).store)
  {
    WithoutDistinct(s.rows, u, t, a);
  }

  // ---------------------------------------------------------------------
  // Aggregate
  // ---------------------------------------------------------------------

  /** `{ thumbs_up, thumbs_down, total_ratings }` of GET /api/ratings/:title/:artist. */
  datatype Stats = Stats(thumbsUp: nat, thumbsDown: nat, total: nat)

  /** The aggregate query: the three counts over the rows whose title and
      artist match exactly (no case or white-space folding). */
  function Aggregate(rows: seq<Row>, t: string, a: string): (st: Stats)
    ensures st.thumbsUp + st.thumbsDown == st.total
    ensures (forall q :: q in rows ==> !OnSong(q, t, a)) ==> st == Stats(0, 0, 0)
  {
    VotesPartition(rows, t, a);
    NoneCounted(rows, t, a);
    Stats(Count(rows, t, a, Some(Up)), Count(rows, t, a, Some(Down)), Count(rows, t, a, None))
  }

  lemma {:induction false} NoneCounted(rows: seq<Row>, t: string, a: string)
    ensures (forall q :: q in rows ==> !OnSong(q, t, a)) ==> Count(rows, t, a, None) == 0
  {
    if rows != [] {
      assert forall q :: q in rows[..|rows| - 1] ==> q in rows;
      NoneCounted(rows[..|rows| - 1], t, a);
    }
  }

  /** In a valid table the aggregate counts users: thumbs-up is the number of
      users whose rating of the song is 1, and so on. */
  lemma AggregateCountsUsers(s: Store, t: string, a: string)
    requires Valid(s)
    ensures Aggregate(s.rows, t, a).thumbsUp == |Raters(s.rows, t, a, Some(Up))|
    ensures Aggregate(s.rows, t, a).thumbsDown == |Raters(s.rows, t, a, Some(Down))|
    ensures Aggregate(s.rows, t, a).total == |Raters(s.rows, t, a, None)|
  {
    CountIsRaters(s.rows, t, a, Some(Up));
    CountIsRaters(s.rows, t, a, Some(Down));
    CountIsRaters(s.rows, t, a, None);
  }

  /** Both writes leave the other keys' rows exactly as they were, in order. */
  lemma UpsertWithout(s: Store, u: UserId, t: string, a: string, v: Vote)
    ensures Without(Upsert(s, u, t, a, v).rows, u, t, a) == Without(s.rows, u, t, a)
  {
    var rows' := Upsert(s, u, t, a, v).rows;
    if Find(s.rows, u, t, a).Some? {
      WithoutRestamp(s.rows, u, t, a, v, s.clock);
    } else {
      assert rows'[..|rows'| - 1] == s.rows;
    }
  }

  lemma {:induction false} WithoutRestamp(rows: seq<Row>, u: UserId, t: string, a: string, v: Vote, now: nat)
    ensures Without(Restamp(rows, u, t, a, v, now), u, t, a) == Without(rows, u, t, a)
  {
    if rows != [] {
      var r := Restamp(rows, u, t, a, v, now);
      assert r[..|r| - 1] == Restamp(rows[..|rows| - 1], u, t, a, v, now);
      WithoutRestamp(rows[..|rows| - 1], u, t, a, v, now);
    }
  }

  /** Counts after a Postgres upsert: the user's previous rating of the song,
      if any, leaves every count it was in, and the new rating enters. */
  lemma UpsertCounts(s: Store, u: UserId, t: string, a: string, v: Vote,
                     t': string, a': string, which: Option<Vote>)
    requires Valid(s)
    ensures Count(Upsert(s, u, t, a, v).rows, t', a', which) + Share(Find(s.rows, u, t, a), t', a', which)
         == Count(s.rows, t', a', which) + Share(Some(Row(0, u, t, a, v, 0, 0)), t', a', which)
  {
    CountSplit(s.rows, u, t, a, t', a', which);
    UpsertSplit(s, u, t, a, v, t', a', which);
    var f := Find(Upsert(s, u, t, a, v).rows, u, t, a);
    ShareOfVote(f.value, u, t, a, v, t', a', which);
  }

  /** The count after an upsert, split at the upserted key. */
  lemma UpsertSplit(s: Store, u: UserId, t: string, a: string, v: Vote,
                    t': string, a': string, which: Option<Vote>)
    requires Valid(s)
    ensures Count(Upsert(s, u, t, a, v).rows, t', a', which)
         == Count(Without(s.rows, u, t, a), t', a', which) + Share(Find(Upsert(s, u, t, a, v).rows, u, t, a), t', a', which)
  {
    UpsertValid(s, u, t, a, v);
    CountSplit(Upsert(s, u, t, a, v).rows, u, t, a, t', a', which);
    UpsertWithout(s, u, t, a, v);
  }

  /** What a row adds to a count depends only on its key and vote. */
  lemma ShareOfVote(r: Row, u: UserId, t: string, a: string, v: Vote,
                    t': string, a': string, which: Option<Vote>)
    requires HasKey(r, u, t, a) && r.vote == v
    ensures Share(Some(r), t', a', which) == Share(Some(Row(0, u, t, a, v, 0, 0)), t', a', which)
  {
  }

  /** Counts after a SQLite replace, in the same terms. */
  lemma ReplaceCounts(s: Store, u: UserId, t: string, a: string, v: Vote,
                      t': string, a': string, which: Option<Vote>)
    requires Valid(s)
    ensures Count(Replace(s, u, t, a, v).rows, t', a', which) + Share(Find(s.rows, u, t, a), t', a', which)
         == Count(s.rows, t', a', which) + Share(Some(Row(0, u, t, a, v, 0, 0)), t', a', which)
  {
    var s' := Replace(s, u, t, a, v);
    CountSplit(s.rows, u, t, a, t', a', which);
    assert s'.rows[..|s'.rows| - 1] == Without(s.rows, u, t, a);
  }

  /** The two back ends differ in ids and timestamps only: after the same
      submission they report the same aggregate for every song. */
  lemma BackendsAgreeOnAggregate(s: Store, u: UserId, t: string, a: string, v: Vote, t': string, a': string)
    requires Valid(s)
    ensures Aggregate(Upsert(s, u, t, a, v).rows, t', a') == Aggregate(Replace(s, u, t, a, v).rows, t', a')
  {
    UpsertCounts(s, u, t, a, v, t', a', Some(Up));
    ReplaceCounts(s, u, t, a, v, t', a', Some(Up));
    UpsertCounts(s, u, t, a, v, t', a', Some(Down));
    ReplaceCounts(s, u, t, a, v, t', a', Some(Down));
    UpsertCounts(s, u, t, a, v, t', a', None);
    ReplaceCounts(s, u, t, a, v, t', a', None);
  }

  /** Deleting a rating takes exactly that user's vote out of the song's counts
      and leaves every other song's counts alone. */
  lemma DeleteCounts(s: Store, u: UserId, t: string, a: string, t': string, a': string, which: Option<Vote>)
    requires Valid(s)
    ensures Count(Delete(s, u, t, a).store.rows, t', a', which) + Share(Find(s.rows, u, t, a), t', a', which)
         == Count(s.rows, t', a', which)
  {
    CountSplit(s.rows, u, t, a, t', a', which);
  }
}

=== FILE: rating_client.dfy ===
/** The now-playing rating widget: `handleRating`, which picks the song and
    posts a vote, and `updateRatingDisplay`, which shows a song's counts and
    the caller's own vote. The network round trip is a parameter: each
    function is given the answer its request got. */
module RatingClient {
  import opened Values
  import opened Auth
  import Text
  import opened Ledger
  import opened RatingRoutes

  /** `currentSong` of the player, when one is set. */
  datatype Track = Track(title: Option<string>, artist: Option<string>)

  /** The now-playing labels `#current-title` and `#current-artist`:
      `None` when the element is missing, else its text. */
  datatype Labels = Labels(title: Option<string>, artist: Option<string>)

  /** The labels show a song: both elements exist and neither shows the
      placeholder the player writes when nothing plays. */
  predicate ShowsSong(l: Labels)
  {
    l.title.Some? && l.artist.Some? && l.title != Some("No track playing") && l.artist != Some("-")
  }

  /** `currentSong` names a real song: both fields truthy and neither the
      player's "Unknown" placeholder. */
  predicate Known(current: Option<Track>)
  {
    && current.Some? && Filled(current.value.title) && Filled(current.value.artist)
    && current.value.title != Some("Unknown Track") && current.value.artist != Some("Unknown Artist")
  }

  /** The song a vote is for: `currentSong` when it names a real song, else
      the labels when they show one, else none. */
  function SongToRate(current: Option<Track>, labels: Labels): (r: Option<(string, string)>)
    ensures Known(current) ==> r == Some((current.value.title.value, current.value.artist.value))
    ensures !Known(current) ==> (r.Some? <==> ShowsSong(labels))
    ensures !Known(current) && r.Some? ==> r == Some((labels.title.value, labels.artist.value))
  {
    if Known(current) then Some((current.value.title.value, current.value.artist.value))
    else if !ShowsSong(labels) then None
    else Some((labels.title.value, labels.artist.value))
  }

  /** A notification: its text and whether it is an error. */
  datatype Notice = Notice(text: string, error: bool)

  /** Everything `handleRating` does, in order: the notice, whether the login
      dialog opens, the request body, the `disabled` values the thumbs-up and
      the thumbs-down button each go through, and the song whose display is
      refreshed afterwards. */
  datatype RatingEffect = RatingEffect(notice: Notice, loginPrompt: bool, request: Option<SubmitBody>,
                                       upTrace: seq<bool>, downTrace: seq<bool>, refresh: Option<(string, string)>)

  /** `handleRating(rating)`. `upButton` and `downButton` say whether
      `thumbs-up-btn` and `thumbs-down-btn` exist, each looked up and set on
      its own; `answer` is what the POST got, a failure carrying the message
      of the error the request layer throws. */
  function HandleRating(signedIn: bool, rating: int, current: Option<Track>, labels: Labels,
                        upButton: bool, downButton: bool, answer: Reply<Ack>): (e: RatingEffect)
    ensures !signedIn ==> e == RatingEffect(Notice("Please login to rate songs", true), true, None, [], [], None)
    ensures signedIn && SongToRate(current, labels).None? ==>
              e == RatingEffect(Notice("No track is currently playing to rate", true), false, None, [], [], None)
    ensures signedIn && SongToRate(current, labels).Some? ==>
              var (t, a) := SongToRate(current, labels).value;
              && e.request == Some(SubmitBody(Some(t), Some(a), Num(rating)))
              && !e.loginPrompt
              && e.upTrace == (if upButton then [true, false] else [])
              && e.downTrace == (if downButton then [true, false] else [])
              && (answer.Ok? ==> e.notice == Notice("Gave \"" + t + "\" a " + (if rating == 1 then "thumbs up" else "thumbs down") + "!", false)
                                 && e.refresh == Some((t, a)))
              && (answer.Fail? ==> e.notice == Notice("Failed to submit rating: " + answer.error, true)
                                   && e.refresh.None?)
  {
    if !signedIn then RatingEffect(Notice("Please login to rate songs", true), true, None, [], [], None)
    else match SongToRate(current, labels)
      case None => RatingEffect(Notice("No track is currently playing to rate", true), false, None, [], [], None)
      case Some((t, a)) =>
        var body := SubmitBody(Some(t), Some(a), Num(rating));
        var up := if upButton then [true, false] else [];
        var down := if downButton then [true, false] else [];
        if answer.Ok? then
          var text := "Gave \"" + t + "\" a " + (if rating == 1 then "thumbs up" else "thumbs down") + "!";
          RatingEffect(Notice(text, false), false, Some(body), up, down, Some((t, a)))
        else
          RatingEffect(Notice("Failed to submit rating: " + answer.error, true), false, Some(body), up, down, None)
  }

  /** The buttons end enabled whatever the server answered, and are only ever
      disabled while a request is out. */
  lemma ButtonsComeBack(signedIn: bool, rating: int, current: Option<Track>, labels: Labels,
                        upButton: bool, downButton: bool, answer: Reply<Ack>)
    ensures var e := HandleRating(signedIn, rating, current, labels, upButton, downButton, answer);
            && (e.upTrace != [] ==> e.upTrace[|e.upTrace| - 1] == false && e.request.Some? && upButton)
            && (e.downTrace != [] ==> e.downTrace[|e.downTrace| - 1] == false && e.request.Some? && downButton)
            && (e.request.None? ==> e.upTrace == [] && e.downTrace == [])
  {
  }

  /** A vote for a song the player knows always passes the servers' checks:
      SQLite stores it, and Postgres stores it exactly when the title and
      artist fit its `VARCHAR(255)` columns. */
  lemma KnownSongVoteIsStored(p: Payload, rating: int, current: Option<Track>, labels: Labels, upButton: bool,
                              downButton: bool, answer: Reply<Ack>, s: Store)
    requires Known(current) && (rating == 1 || rating == -1)
    ensures var e := HandleRating(true, rating, current, labels, upButton, downButton, answer);
            var (t, a) := SongToRate(current, labels).value;
            && (SubmitPostgres(Verified(p), e.request.value, s).reply.Ok? <==> FitsVarchar(t, 255) && FitsVarchar(a, 255))
            && SubmitSqlite(Verified(p), e.request.value, s).reply.Ok?
  {
  }

  /** The label fallback sends whatever text the labels hold, so an empty
      label reaches the server and is refused there with a 400. */
  lemma EmptyLabelIsRefusedByServer(p: Payload, s: Store)
    ensures var e := HandleRating(true, 1, None, Labels(Some(""), Some("Joy")), true, true, Ok(Ack("", "")));
            && e.request == Some(SubmitBody(Some(""), Some("Joy"), Num(1)))
            && SubmitPostgres(Verified(p), e.request.value, s).reply
               == Fail(400, "song_title, song_artist, and rating are required")
  {
  }

  // ---------------------------------------------------------------------
  // updateRatingDisplay
  // ---------------------------------------------------------------------

  /** The JSON of a ratings reply as the page reads it: a count may be
      missing or null (`None`). */
  datatype RatingsJson = RatingsJson(thumbsUp: Option<int>, thumbsDown: Option<int>, userRating: UserRating)

  /** The JSON the servers write for a ratings reply. */
  function Json(r: RatingsReply): (j: RatingsJson)
    ensures j.thumbsUp == Some(r.stats.thumbsUp) && j.thumbsDown == Some(r.stats.thumbsDown)
    ensures j.userRating == r.userRating
  {
    RatingsJson(Some(r.stats.thumbsUp), Some(r.stats.thumbsDown), r.userRating)
  }

  /** The rating widget: shown or hidden, the two count texts and which vote
      button is active. */
  datatype Widget = Widget(shown: bool, upCount: string, downCount: string, upActive: bool, downActive: bool)

  /** `response.thumbs_up || 0`: a missing, null or zero count shows as 0. */
  function CountText(c: Option<int>): (t: string)
    ensures c.None? || c.value == 0 ==> t == "0"
    ensures c.Some? && c.value > 0 ==> t == Text.NatToString(c.value)
  {
    if c.None? || c.value == 0 then "0" else Text.IntToString(c.value)
  }

  /** What `updateRatingDisplay` does: the widget after it, and the song it
      asked about (if it asked). */
  datatype Refresh = Refresh(widget: Widget, asked: Option<(string, string)>)

  /** `updateRatingDisplay(title, artist)`. `present` says whether the widget
      element exists; `answer` is the reply to the GET (`None` when it failed). */
  function UpdateRatingDisplay(w: Widget, present: bool, signedIn: bool, title: Option<string>, artist: Option<string>,
                               labels: Labels, answer: Option<RatingsJson>): (r: Refresh)
    ensures !present ==> r == Refresh(w, None)
    ensures present && !(Filled(title) && Filled(artist)) && !ShowsSong(labels) ==> r == Refresh(w.(shown := false), None)
    ensures r.asked.Some? <==> present && ((Filled(title) && Filled(artist)) || ShowsSong(labels))
    ensures r.asked.Some? ==>
              && r.widget.shown
              && r.asked == (if Filled(title) && Filled(artist) then Some((title.value, artist.value))
                             else Some((labels.title.value, labels.artist.value)))
    ensures r.asked.Some? && answer.None? ==>
              r.widget == w.(shown := true, upCount := "0", downCount := "0")
    ensures r.asked.Some? && answer.Some? ==>
              && r.widget.upCount == CountText(answer.value.thumbsUp)
              && r.widget.downCount == CountText(answer.value.thumbsDown)
              && (if signedIn && answer.value.userRating != Omitted then
                    && (r.widget.upActive <==> answer.value.userRating == Rated(Up))
                    && (r.widget.downActive <==> answer.value.userRating == Rated(Down))
                  else r.widget.upActive == w.upActive && r.widget.downActive == w.downActive)
  {
    if !present then Refresh(w, None)
    else
      var song := if Filled(title) && Filled(artist) then Some((title.value, artist.value))
                  else if ShowsSong(labels) then Some((labels.title.value, labels.artist.value))
                  else None;
      match song
      case None => Refresh(w.(shown := false), None)
      case Some(s) =>
        var shown := w.(shown := true);
        match answer
        case None => Refresh(shown.(upCount := "0", downCount := "0"), song)
        case Some(j) =>
          var counted := shown.(upCount := CountText(j.thumbsUp), downCount := CountText(j.thumbsDown));
          if signedIn && j.userRating != Omitted then
            Refresh(counted.(upActive := j.userRating == Rated(Up), downActive := j.userRating == Rated(Down)), song)
          else Refresh(counted, song)
  }

  /** The two vote buttons are never both active, if they were not before. */
  lemma NeverBothActive(w: Widget, present: bool, signedIn: bool, title: Option<string>, artist: Option<string>,
                        labels: Labels, answer: Option<RatingsJson>)
    requires !(w.upActive && w.downActive)
    ensures var r := UpdateRatingDisplay(w, present, signedIn, title, artist, labels, answer);
            !(r.widget.upActive && r.widget.downActive)
  {
  }

  /** Against the Postgres route, a signed-in user's buttons show exactly the
      vote the table holds for them, and the counts are the table's. */
  lemma DisplayShowsStoredVote(w: Widget, p: Payload, t: string, a: string, labels: Labels, s: Store)
    requires p.userId != 0 && t != "" && a != ""
    ensures var r := UpdateRatingDisplay(w, true, true, Some(t), Some(a), labels,
                                         Some(Json(GetRatings(Verified(p), t, a, s))));
            var mine := Find(s.rows, p.userId, t, a);
            && r.asked == Some((t, a))
            && (r.widget.upActive <==> mine.Some? && mine.value.vote == Up)
            && (r.widget.downActive <==> mine.Some? && mine.value.vote == Down)
            && r.widget.upCount == CountText(Some(Aggregate(s.rows, t, a).thumbsUp))
  {
  }

  /** Against the SQLite route as written the buttons never move: the reply
      has no `user_rating`, so whatever the buttons showed stays. */
  lemma SqliteDisplayIsStale(w: Widget, p: Payload, t: string, a: string, labels: Labels, s: Store)
    requires t != "" && a != ""
    ensures var r := UpdateRatingDisplay(w, true, true, Some(t), Some(a), labels,
                                         Some(Json(GetRatingsSqliteAsWritten(Verified(p), t, a, s))));
            r.widget.upActive == w.upActive && r.widget.downActive == w.downActive
  {
    SqliteNeverReportsOwnRating(Verified(p), t, a, s);
  }

  /** A thumbs-up click on a known song, end to end on Postgres: the click
      posts exactly that song with rating 1. When the song fits the columns
      the vote is stored, the notice confirms it, and the refreshed widget
      shows thumbs-up active and thumbs-down not; otherwise nothing is stored
      and the notice carries the server's 500. */
  lemma ClickThenRefresh(p: Payload, t: string, a: string, labels: Labels, w: Widget, s: Store)
    requires Known(Some(Track(Some(t), Some(a)))) && p.userId != 0 && Valid(s)
    ensures var body := SubmitBody(Some(t), Some(a), Num(1));
            var answer := SubmitPostgres(Verified(p), body, s);
            var e := HandleRating(true, 1, Some(Track(Some(t), Some(a))), labels, true, true, answer.reply);
            var r := UpdateRatingDisplay(w, true, true, Some(t), Some(a), labels,
                                         Some(Json(GetRatings(Verified(p), t, a, answer.store))));
            && e.request == Some(body)
            && (FitsVarchar(t, 255) && FitsVarchar(a, 255) ==>
                  && e.notice == Notice("Gave \"" + t + "\" a thumbs up!", false)
                  && e.refresh == Some((t, a))
                  && r.widget.upActive && !r.widget.downActive)
            && (!(FitsVarchar(t, 255) && FitsVarchar(a, 255)) ==>
                  && answer.store == s
                  && e.notice == Notice("Failed to submit rating: " + TooLong, true)
                  && e.refresh.None?)
  {
    var answer := SubmitPostgres(Verified(p), SubmitBody(Some(t), Some(a), Num(1)), s);
    if KeyFits(Rating(t, a, Up)) {
      ClickPosts(t, a, labels, answer.reply);
      PostgresStep(p, t, a, Up, s);
      RefreshShowsUp(p, t, a, labels, w, s);
    }
  }

  /** A click on a known song, with a successful answer. */
  lemma ClickPosts(t: string, a: string, labels: Labels, answer: Reply<Ack>)
    requires Known(Some(Track(Some(t), Some(a)))) && answer.Ok?
    ensures var e := HandleRating(true, 1, Some(Track(Some(t), Some(a))), labels, true, true, answer);
            && e.request == Some(SubmitBody(Some(t), Some(a), Num(1)))
            && e.notice == Notice("Gave \"" + t + "\" a thumbs up!", false)
            && e.refresh == Some((t, a))
  {
    assert SongToRate(Some(Track(Some(t), Some(a))), labels) == Some((t, a));
  }

  /** The display refreshed after the caller's thumbs-up shows thumbs-up only. */
  lemma RefreshShowsUp(p: Payload, t: string, a: string, labels: Labels, w: Widget, s: Store)
    requires p.userId != 0 && t != "" && a != ""
    ensures var r := UpdateRatingDisplay(w, true, true, Some(t), Some(a), labels,
                                         Some(Json(GetRatings(Verified(p), t, a, Upsert(s, p.userId, t, a, Up)))));
            r.widget.upActive && !r.widget.downActive
  {
    DisplayShowsStoredVote(w, p, t, a, labels, Upsert(s, p.userId, t, a, Up));
  }
}

=== FILE: rating_routes.dfy ===
/** The four rating routes of both servers, each a function from the request's
    credential, its input and the table to the reply and the table after it:
    POST /api/ratings, GET /api/ratings/:title/:artist, GET /api/ratings/my
    and DELETE /api/ratings. Path segments arrive already decoded. */
module RatingRoutes {
  import opened Values
  import opened Auth
  import opened Ledger
  import History

  /** Body of POST /api/ratings. */
  datatype SubmitBody = SubmitBody(songTitle: Option<string>, songArtist: Option<string>, rating: JsValue)

  /** Body of DELETE /api/ratings. */
  datatype DeleteBody = DeleteBody(songTitle: Option<string>, songArtist: Option<string>)

  /** Reply of a successful submission: `{ message, rating: 'thumbs_up' | 'thumbs_down' }`. */
  datatype Ack = Ack(message: string, rating: string)

  /** A handler's reply together with the table after the request. */
  datatype Step<T> = Step(reply: Reply<T>, store: Store)

  /** The song and vote of a submission that passed validation. */
  datatype Rating = Rating(title: string, artist: string, vote: Vote)

  /** The two checks both servers run before touching the table: all three
      fields present (title and artist non-empty), then a rating that is
      strictly the number 1 or -1 (so "1", true or 0 are refused). */
  function ParseSubmission(b: SubmitBody): (r: Reply<Rating>)
    ensures r.Ok? <==> Filled(b.songTitle) && Filled(b.songArtist) && (b.rating == Num(1) || b.rating == Num(-1))
    ensures r.Fail? ==> r.status == 400
    ensures r.Ok? ==> && r.body.title == b.songTitle.value && r.body.artist == b.songArtist.value
                      && b.rating == Num(Value(r.body.vote))
  {
    if !Filled(b.songTitle) || !Filled(b.songArtist) || b.rating == Undefined || b.rating == Null then
      Fail(400, "song_title, song_artist, and rating are required")
    else if b.rating != Num(1) && b.rating != Num(-1) then
      Fail(400, "rating must be 1 (thumbs up) or -1 (thumbs down)")
    else
      Ok(Rating(b.songTitle.value, b.songArtist.value, if b.rating == Num(1) then Up else Down))
  }

  /** The label of the success reply. */
  function Label(v: Vote): (l: string)
    ensures l == "thumbs_up" <==> Value(v) == 1
    ensures l == "thumbs_down" <==> Value(v) == -1
  {
    if v == Up then "thumbs_up" else "thumbs_down"
  }

  /** Authentication, then validation; the user and rating of an admitted submission. */
  function Admit(c: Credential, b: SubmitBody): (r: Reply<(UserId, Rating)>)
    ensures r.Ok? <==> c.Verified? && ParseSubmission(b).Ok?
    ensures r.Ok? ==> r.body == (c.payload.userId, ParseSubmission(b).body)
    ensures r.Fail? ==> r.status in {400, 401, 403}
    ensures r.Fail? && c.Verified? ==> r.status == 400
  {
    match RequireAuth(c)
    case Fail(st, e) => Fail(st, e)
    case Ok(p) =>
      match ParseSubmission(b)
      case Fail(st, e) => Fail(st, e)
      case Ok(rating) => Ok((p.userId, rating))
  }

  /** POST /api/ratings on SQLite (INSERT OR REPLACE). */
  function SubmitSqlite(c: Credential, b: SubmitBody, s: Store): (r: Step<Ack>)
    ensures r.reply.Fail? <==> Admit(c, b).Fail?
    ensures r.reply.Fail? ==> r.store == s
    ensures r.reply.Ok? ==>
              var (u, rt) := Admit(c, b).body;
              && r.store == Replace(s, u, rt.title, rt.artist, rt.vote)
              && r.reply.body == Ack("Rating submitted successfully", Label(rt.vote))
  {
    match Admit(c, b)
    case Fail(st, e) => Step(Fail(st, e), s)
    case Ok((u, rt)) =>
      Step(Ok(Ack("Rating submitted successfully", Label(rt.vote))), Replace(s, u, rt.title, rt.artist, rt.vote))
  }

  /** POST /api/ratings on Postgres (INSERT ... ON CONFLICT DO UPDATE). */
  function SubmitPostgres(c: Credential, b: SubmitBody, s: Store): (r: Step<Ack>)
    ensures r.reply.Ok? <==> Admit(c, b).Ok? && KeyFits(Admit(c, b).body.1)
    ensures Admit(c, b).Fail? ==> r.reply.Fail? && r.reply.status == Admit(c, b).status
    ensures Admit(c, b).Ok? && !KeyFits(Admit(c, b).body.1) ==> r.reply == Fail(500, TooLong)
    ensures r.reply.Fail? ==> r.store == s
    ensures r.reply.Ok? ==>
              var (u, rt) := Admit(c, b).body;
              && r.store == Upsert(s, u, rt.title, rt.artist, rt.vote)
              && r.reply.body == Ack("Rating submitted successfully", Label(rt.vote))
  {
    match Admit(c, b)
    case Fail(st, e) => Step(Fail(st, e), s)
    case Ok((u, rt)) =>
      if !KeyFits(rt) then Step(Fail(500, TooLong), s)
      else Step(Ok(Ack("Rating submitted successfully", Label(rt.vote))), Upsert(s, u, rt.title, rt.artist, rt.vote))
  }

  /** `song_title` and `song_artist` are `VARCHAR(255)` on Postgres. */
  predicate KeyFits(rt: Rating)
  {
    FitsVarchar(rt.title, 255) && FitsVarchar(rt.artist, 255)
  }

  /** The 500 of the Postgres route's catch, `'Database error: ' + error.message`,
      for a value longer than its column. */
  const TooLong: string := "Database error: value too long for type character varying(255)"

  /** The two servers answer an admitted submission alike unless the song's
      title or artist is too long for Postgres: then SQLite stores it and
      Postgres answers 500 and stores nothing. When both store it, every
      song's aggregate agrees. */
  lemma BackendsDifferOnlyOnWidth(c: Credential, b: SubmitBody, s: Store, t': string, a': string)
    requires Valid(s)
    ensures SubmitSqlite(c, b, s).reply.Ok? && !SubmitPostgres(c, b, s).reply.Ok?
            <==> Admit(c, b).Ok? && !KeyFits(Admit(c, b).body.1)
    ensures SubmitPostgres(c, b, s).reply.Ok? ==>
              && SubmitSqlite(c, b, s).reply == SubmitPostgres(c, b, s).reply
              && Aggregate(SubmitSqlite(c, b, s).store.rows, t', a') == Aggregate(SubmitPostgres(c, b, s).store.rows, t', a')
  {
    if SubmitPostgres(c, b, s).reply.Ok? {
      var (u, rt) := Admit(c, b).body;
      BackendsAgreeOnAggregate(s, u, rt.title, rt.artist, rt.vote, t', a');
    }
  }

  /** A 256-character title: SQLite stores the vote, Postgres answers 500. */
  lemma LongTitleSplitsBackends(p: Payload)
    ensures var b := SubmitBody(Some(seq(256, i => 'x')), Some("Joy"), Num(1));
            && SubmitSqlite(Verified(p), b, Empty()).reply.Ok?
            && SubmitPostgres(Verified(p), b, Empty()) == Step(Fail(500, TooLong), Empty())
  {
  }

  /** The `user_rating` field of the aggregate reply: left out of the object,
      `null`, or the caller's stored value. */
  datatype UserRating = Omitted | NullRating | Rated(vote: Vote)

  /** Reply of GET /api/ratings/:title/:artist (always 200). */
  datatype RatingsReply = RatingsReply(stats: Stats, userRating: UserRating)

  /** The caller's own rating as `rows[0]?.rating || null` reads it: both
      stored values are truthy, so a stored row always shows through. */
  function OwnRating(s: Store, u: UserId, t: string, a: string): (r: UserRating)
    ensures r != Omitted
    ensures r.Rated? <==> Find(s.rows, u, t, a).Some?
    ensures r.Rated? ==> r.vote == Find(s.rows, u, t, a).value.vote
  {
    match Find(s.rows, u, t, a)
    case Some(row) => Rated(row.vote)
    case None => NullRating
  }

  /** GET /api/ratings/:title/:artist as Postgres writes it: the caller is
      `req.user?.userId`, and the own rating is added when that id is truthy
      (non-zero; ids drawn from SERIAL start at 1). */
  function GetRatings(c: Credential, t: string, a: string, s: Store): (r: RatingsReply)
    ensures r.stats == Aggregate(s.rows, t, a)
    ensures r.userRating != Omitted <==> OptionalAuth(c).Authenticated? && OptionalAuth(c).payload.userId != 0
    ensures r.userRating != Omitted ==> r.userRating == OwnRating(s, OptionalAuth(c).payload.userId, t, a)
  {
    var stats := Aggregate(s.rows, t, a);
    match OptionalAuth(c)
    case Authenticated(p) =>
      if p.userId != 0 then RatingsReply(stats, OwnRating(s, p.userId, t, a))
      else RatingsReply(stats, Omitted)
    case Anonymous => RatingsReply(stats, Omitted)
  }

  /** A property of the decoded token object by name, as `req.user.<key>`
      reads it: the signed `userId` and `username`, and the `iat` and `exp`
      the JWT library adds. No other key is ever present. */
  function PayloadField(p: Payload, key: string): (r: Option<JsValue>)
    ensures r.Some? <==> key in {"userId", "username", "iat", "exp"}
    ensures r.Some? ==> r.value.Num? || r.value.Str?
  {
    if key == "userId" then Some(Num(p.userId))
    else if key == "username" then Some(Str(p.username))
    else if key == "iat" then Some(Num(p.iat))
    else if key == "exp" then Some(Num(p.exp))
    else None
  }

  /** Reading back a token signed at register or login: `userId` and
      `username` are the signed claims, `exp` lies a day after `iat`, and
      there is no `id` field. */
  lemma SignedFieldsReadBack(c: Claims, now: int)
    ensures var p := Signed(c, now);
            && PayloadField(p, "userId") == Some(Num(c.userId))
            && PayloadField(p, "username") == Some(Str(c.username))
            && PayloadField(p, "iat") == Some(Num(now))
            && PayloadField(p, "exp") == Some(Num(now + TokenLifetime))
            && PayloadField(p, "id") == None
  {
  }

  /** GET /api/ratings/:title/:artist as the SQLite server writes it: the
      caller is looked up as `req.user?.id`. */
  function GetRatingsSqliteAsWritten(c: Credential, t: string, a: string, s: Store): (r: RatingsReply)
    ensures r.stats == Aggregate(s.rows, t, a)
  {
    var stats := Aggregate(s.rows, t, a);
    var id := match OptionalAuth(c)
              case Authenticated(p) => PayloadField(p, "id")
              case Anonymous => None;
    match id
    case Some(Num(n)) =>
      // ids are never negative, so a negative one matches no row
      if n != 0 then RatingsReply(stats, if n > 0 then OwnRating(s, n, t, a) else NullRating)
      else RatingsReply(stats, Omitted)
    case _ => RatingsReply(stats, Omitted)
  }

  /** The SQLite reply never carries `user_rating`, whoever asks. */
  lemma SqliteNeverReportsOwnRating(c: Credential, t: string, a: string, s: Store)
    ensures GetRatingsSqliteAsWritten(c, t, a, s).userRating == Omitted
  {
  }

  /** A logged-in user who has just rated a song: the SQLite route leaves out
      the rating the Postgres route reports. */
  lemma SqliteLosesOwnRating()
    ensures var p := Signed(Claims(1, "alice"), 0);
            var st := SubmitSqlite(Verified(p), SubmitBody(Some("Ode"), Some("Joy"), Num(1)), Empty()).store;
            && GetRatingsSqliteAsWritten(Verified(p), "Ode", "Joy", st).userRating == Omitted
            && GetRatings(Verified(p), "Ode", "Joy", st).userRating == Rated(Up)
  {
    var p := Signed(Claims(1, "alice"), 0);
    var st := SubmitSqlite(Verified(p), SubmitBody(Some("Ode"), Some("Joy"), Num(1)), Empty()).store;
    assert st == Replace(Empty(), 1, "Ode", "Joy", Up);
  }

  /** GET /api/ratings/my. */
  function MyRatings(c: Credential, s: Store): (r: Reply<seq<History.Entry>>)
    ensures r.Ok? <==> c.Verified?
    ensures r.Ok? ==> r.body == History.History(s, c.payload.userId)
  {
    match RequireAuth(c)
    case Fail(st, e) => Fail(st, e)
    case Ok(p) => Ok(History.History(s, p.userId))
  }

  /** DELETE /api/ratings (the same on both servers). */
  function DeleteRating(c: Credential, b: DeleteBody, s: Store): (r: Step<string>)
    ensures r.reply.Fail? ==> r.store == s
    ensures !c.Verified? ==> r.reply.Fail? && r.reply.status in {401, 403}
    ensures c.Verified? && !(Filled(b.songTitle) && Filled(b.songArtist)) ==> r.reply == Fail(400, "song_title and song_artist are required")
    ensures c.Verified? && Filled(b.songTitle) && Filled(b.songArtist) ==>
              var key := (c.payload.userId, b.songTitle.value, b.songArtist.value);
              && (r.reply.Ok? <==> CountKey(s.rows, key.0, key.1, key.2) > 0)
              && (r.reply.Fail? ==> r.reply == Fail(404, "Rating not found"))
              && (forall q :: q in r.store.rows <==> q in s.rows && !HasKey(q, key.0, key.1, key.2))
              && r.store.clock == s.clock && r.store.nextId == s.nextId
  {
    match RequireAuth(c)
    case Fail(st, e) => Step(Fail(st, e), s)
    case Ok(p) =>
      if !Filled(b.songTitle) || !Filled(b.songArtist) then
        Step(Fail(400, "song_title and song_artist are required"), s)
      else
        var removal := Delete(s, p.userId, b.songTitle.value, b.songArtist.value);
        if removal.changes == 0 then
          NothingToDelete(s, p.userId, b.songTitle.value, b.songArtist.value);
          Step(Fail(404, "Rating not found"), s)
        else
          Step(Ok("Rating deleted successfully"), removal.store)
  }

  /** A DELETE that matches no row removes nothing: the table is unchanged and
      `changes` is 0. */
  lemma NothingToDelete(s: Store, u: UserId, t: string, a: string)
    requires CountKey(s.rows, u, t, a) == 0
    ensures Delete(s, u, t, a) == Removal(s, 0)
  {
    NoKeyWithout(s.rows, u, t, a);
  }

  lemma {:induction false} NoKeyWithout(rows: seq<Row>, u: UserId, t: string, a: string)
    requires CountKey(rows, u, t, a) == 0
    ensures Without(rows, u, t, a) == rows
  {
    if rows != [] {
      assert rows == rows[..|rows| - 1] + [rows[|rows| - 1]];
      NoKeyWithout(rows[..|rows| - 1], u, t, a);
    }
  }

  // ---------------------------------------------------------------------
  // Properties across requests
  // ---------------------------------------------------------------------

  /** Every route keeps the table invariant, on both servers. */
  lemma RoutesKeepValid(c: Credential, b: SubmitBody, d: DeleteBody, s: Store)
    requires Valid(s)
    ensures Valid(SubmitSqlite(c, b, s).store)
    ensures Valid(SubmitPostgres(c, b, s).store)
    ensures Valid(DeleteRating(c, d, s).store)
  {
    SubmitKeepsValid(c, b, s);
    DeleteKeepsValid(c, d, s);
  }

  lemma SubmitKeepsValid(c: Credential, b: SubmitBody, s: Store)
    requires Valid(s)
    ensures Valid(SubmitSqlite(c, b, s).store)
    ensures Valid(SubmitPostgres(c, b, s).store)
  {
    if Admit(c, b).Ok? {
      var (u, rt) := Admit(c, b).body;
      ReplaceValid(s, u, rt.title, rt.artist, rt.vote);
      UpsertValid(s, u, rt.title, rt.artist, rt.vote);
    }
  }

  lemma DeleteKeepsValid(c: Credential, d: DeleteBody, s: Store)
    requires Valid(s)
    ensures Valid(DeleteRating(c, d, s).store)
  {
    if c.Verified? && Filled(d.songTitle) && Filled(d.songArtist) {
      DeleteValid(s, c.payload.userId, d.songTitle.value, d.songArtist.value);
    }
  }

  /** After a successful Postgres submission the submitter sees their rating in
      the aggregate, the song's total grows only if it is their first rating,
      and the vote moves from the old column (if any) to the new one. */
  lemma SubmitThenAggregate(p: Payload, b: SubmitBody, s: Store)
    requires Valid(s) && p.userId != 0
    requires SubmitPostgres(Verified(p), b, s).reply.Ok?
    ensures var rt := ParseSubmission(b).body;
            var prior := Find(s.rows, p.userId, rt.title, rt.artist);
            var before := Aggregate(s.rows, rt.title, rt.artist);
            var after := GetRatings(Verified(p), rt.title, rt.artist, SubmitPostgres(Verified(p), b, s).store);
            && after.userRating == Rated(rt.vote)
            && after.stats.total == before.total + (if prior.None? then 1 else 0)
            && after.stats.thumbsUp + (if prior.Some? && prior.value.vote == Up then 1 else 0)
               == before.thumbsUp + (if rt.vote == Up then 1 else 0)
            && after.stats.thumbsDown + (if prior.Some? && prior.value.vote == Down then 1 else 0)
               == before.thumbsDown + (if rt.vote == Down then 1 else 0)
  {
    var rt := ParseSubmission(b).body;
    var s' := SubmitPostgres(Verified(p), b, s).store;
    assert s' == Upsert(s, p.userId, rt.title, rt.artist, rt.vote);
    ReadBack(p, rt.title, rt.artist, s');
    UpsertAggregate(s, p.userId, rt.title, rt.artist, rt.vote);
  }

  /** The song's aggregate after an upsert, in terms of the one before it. */
  lemma UpsertAggregate(s: Store, u: UserId, t: string, a: string, v: Vote)
    requires Valid(s)
    ensures var prior := Find(s.rows, u, t, a);
            var before := Aggregate(s.rows, t, a);
            var after := Aggregate(Upsert(s, u, t, a, v).rows, t, a);
            && after.total == before.total + (if prior.None? then 1 else 0)
            && after.thumbsUp + (if prior.Some? && prior.value.vote == Up then 1 else 0)
               == before.thumbsUp + (if v == Up then 1 else 0)
            && after.thumbsDown + (if prior.Some? && prior.value.vote == Down then 1 else 0)
               == before.thumbsDown + (if v == Down then 1 else 0)
  {
    UpsertCounts(s, u, t, a, v, t, a, None);
    UpsertCounts(s, u, t, a, v, t, a, Some(Up));
    UpsertCounts(s, u, t, a, v, t, a, Some(Down));
  }

  /** What a caller with a truthy id reads back from the Postgres route. */
  lemma ReadBack(p: Payload, t: string, a: string, s: Store)
    requires p.userId != 0
    ensures GetRatings(Verified(p), t, a, s) == RatingsReply(Aggregate(s.rows, t, a), OwnRating(s, p.userId, t, a))
  {
  }

  /** One valid Postgres submission is one upsert, when the song fits its columns. */
  lemma PostgresStep(p: Payload, t: string, a: string, v: Vote, s: Store)
    requires t != "" && a != ""
    ensures SubmitPostgres(Verified(p), SubmitBody(Some(t), Some(a), Num(Value(v))), s).store
            == if KeyFits(Rating(t, a, v)) then Upsert(s, p.userId, t, a, v) else s
  {
  }

  /** A song nobody has rated reads as zero counts, with a `null` own rating
      for a logged-in caller: absence is not an error. */
  lemma UnratedSong(c: Credential, t: string, a: string, s: Store)
    requires forall q :: q in s.rows ==> !OnSong(q, t, a)
    ensures GetRatings(c, t, a, s).stats == Stats(0, 0, 0)
    ensures GetRatings(c, t, a, s).userRating in {Omitted, NullRating}
  {
  }

  /** A successful delete is not repeatable: the second one answers 404 and
      changes nothing. */
  lemma DeleteOnce(c: Credential, d: DeleteBody, s: Store)
    requires Valid(s)
    requires DeleteRating(c, d, s).reply.Ok?
    ensures var s' := DeleteRating(c, d, s).store;
            DeleteRating(c, d, s') == Step(Fail(404, "Rating not found"), s')
  {
    var u := c.payload.userId;
    var t := d.songTitle.value;
    var a := d.songArtist.value;
    var s' := DeleteRating(c, d, s).store;
    DeleteValid(s, u, t, a);
    KeyCountAtMostOne(s'.rows, u, t, a);
  }

  /** Deleting touches only the caller's row: other users' ratings of the same
      song, and the caller's other ratings, all stay. */
  lemma DeleteOnlyOwnRow(c: Credential, d: DeleteBody, s: Store, q: Row)
    requires c.Verified? && q in s.rows
    requires q.user != c.payload.userId || Some(q.title) != d.songTitle || Some(q.artist) != d.songArtist
    ensures q in DeleteRating(c, d, s).store.rows
  {
  }

  /** The worked example: alice rates up, bob rates down, alice changes her mind.
      Alice's row keeps id 1 and creation time 0 through the change, while the
      SERIAL counter still advances. */
  lemma AliceAndBob()
    ensures SubmitPostgres(Verified(Signed(Claims(1, "alice"), 0)), SubmitBody(Some("Ode"), Some("Joy"), Num(1)), Empty()).store
         == Store([Row(1, 1, "Ode", "Joy", Up, 0, 0)], 1, 2)
    ensures GetRatings(Verified(Signed(Claims(1, "alice"), 0)), "Ode", "Joy", Store([Row(1, 1, "Ode", "Joy", Up, 0, 0)], 1, 2))
         == RatingsReply(Stats(1, 0, 1), Rated(Up))
    ensures SubmitPostgres(Verified(Signed(Claims(2, "bob"), 0)), SubmitBody(Some("Ode"), Some("Joy"), Num(-1)),
                           Store([Row(1, 1, "Ode", "Joy", Up, 0, 0)], 1, 2)).store
         == Store([Row(1, 1, "Ode", "Joy", Up, 0, 0), Row(2, 2, "Ode", "Joy", Down, 1, 1)], 2, 3)
    ensures GetRatings(Verified(Signed(Claims(2, "bob"), 0)), "Ode", "Joy",
                       Store([Row(1, 1, "Ode", "Joy", Up, 0, 0), Row(2, 2, "Ode", "Joy", Down, 1, 1)], 2, 3)).stats
         == Stats(1, 1, 2)
    ensures SubmitPostgres(Verified(Signed(Claims(1, "alice"), 0)), SubmitBody(Some("Ode"), Some("Joy"), Num(-1)),
                           Store([Row(1, 1, "Ode", "Joy", Up, 0, 0), Row(2, 2, "Ode", "Joy", Down, 1, 1)], 2, 3)).store
         == Store([Row(1, 1, "Ode", "Joy", Down, 0, 2), Row(2, 2, "Ode", "Joy", Down, 1, 1)], 3, 4)
    ensures GetRatings(Verified(Signed(Claims(1, "alice"), 0)), "Ode", "Joy",
                       Store([Row(1, 1, "Ode", "Joy", Down, 0, 2), Row(2, 2, "Ode", "Joy", Down, 1, 1)], 3, 4))
         == RatingsReply(Stats(0, 2, 2), Rated(Down))
  {
    var s1 := Store([Row(1, 1, "Ode", "Joy", Up, 0, 0)], 1, 2);
    var s2 := Store([Row(1, 1, "Ode", "Joy", Up, 0, 0), Row(2, 2, "Ode", "Joy", Down, 1, 1)], 2, 3);
    var s3 := Store([Row(1, 1, "Ode", "Joy", Down, 0, 2), Row(2, 2, "Ode", "Joy", Down, 1, 1)], 3, 4);
    PostgresStep(Signed(Claims(1, "alice"), 0), "Ode", "Joy", Up, Empty());
    FirstVote();
    ReadBack(Signed(Claims(1, "alice"), 0), "Ode", "Joy", s1);
    PostgresStep(Signed(Claims(2, "bob"), 0), "Ode", "Joy", Down, s1);
    SecondVote();
    ReadBack(Signed(Claims(2, "bob"), 0), "Ode", "Joy", s2);
    PostgresStep(Signed(Claims(1, "alice"), 0), "Ode", "Joy", Down, s2);
    ChangedVote();
    ReadBack(Signed(Claims(1, "alice"), 0), "Ode", "Joy", s3);
  }

  lemma FirstVote()
    ensures var s1 := Upsert(Empty(), 1, "Ode", "Joy", Up);
            && s1 == Store([Row(1, 1, "Ode", "Joy", Up, 0, 0)], 1, 2)
            && Aggregate(s1.rows, "Ode", "Joy") == Stats(1, 0, 1)
            && Find(s1.rows, 1, "Ode", "Joy") == Some(Row(1, 1, "Ode", "Joy", Up, 0, 0))
  {
    var rows := [Row(1, 1, "Ode", "Joy", Up, 0, 0)];
    assert rows[..0] == [];
  }

  lemma SecondVote()
    ensures var s2 := Upsert(Store([Row(1, 1, "Ode", "Joy", Up, 0, 0)], 1, 2), 2, "Ode", "Joy", Down);
            && s2 == Store([Row(1, 1, "Ode", "Joy", Up, 0, 0), Row(2, 2, "Ode", "Joy", Down, 1, 1)], 2, 3)
            && Aggregate(s2.rows, "Ode", "Joy") == Stats(1, 1, 2)
  {
    var r1 := Row(1, 1, "Ode", "Joy", Up, 0, 0);
    var rows := [r1, Row(2, 2, "Ode", "Joy", Down, 1, 1)];
    assert [r1][..0] == [];
    assert rows[..1] == [r1];
  }

  lemma ChangedVote()
    ensures var s3 := Upsert(Store([Row(1, 1, "Ode", "Joy", Up, 0, 0), Row(2, 2, "Ode", "Joy", Down, 1, 1)], 2, 3),
                             1, "Ode", "Joy", Down);
            && s3 == Store([Row(1, 1, "Ode", "Joy", Down, 0, 2), Row(2, 2, "Ode", "Joy", Down, 1, 1)], 3, 4)
            && Aggregate(s3.rows, "Ode", "Joy") == Stats(0, 2, 2)
            && Find(s3.rows, 1, "Ode", "Joy") == Some(Row(1, 1, "Ode", "Joy", Down, 0, 2))
  {
    var r1 := Row(1, 1, "Ode", "Joy", Up, 0, 0);
    var r2 := Row(2, 2, "Ode", "Joy", Down, 1, 1);
    var r1' := Row(1, 1, "Ode", "Joy", Down, 0, 2);
    assert [r1, r2][..1] == [r1];
    assert Find([r1, r2], 1, "Ode", "Joy") == Some(r1);
    assert Restamp([r1, r2], 1, "Ode", "Joy", Down, 2) == [r1', r2];
    assert [r1'][..0] == [];
    assert [r1', r2][..1] == [r1'];
    var rows := [r1', r2];
    assert rows[..|rows| - 1] == [r1'] && rows[|rows| - 1] == r2;
    assert Count(rows, "Ode", "Joy", Some(Up)) == Count([r1'], "Ode", "Joy", Some(Up)) == 0;
    assert Count(rows, "Ode", "Joy", Some(Down)) == Count([r1'], "Ode", "Joy", Some(Down)) + 1 == 2;
    assert Count(rows, "Ode", "Joy", None) == Count([r1'], "Ode", "Joy", None) + 1 == 2;
  }
}

=== FILE: text.dfy ===
/** String rules of the JavaScript runtime the client and server rely on:
    `String.prototype.trim`, `String.prototype.length` (UTF-16 code units),
    and the decimal rendering and parsing of non-negative integers. */
module Text {

  /** The characters `trim` removes: ECMAScript WhiteSpace and LineTerminator. */
  const JsSpaces: set<char> :=
         {'\t', '\n', '\U{000B}', '\U{000C}', '\r', ' ', '\U{00A0}', '\U{1680}',
          '\U{2000}', '\U{2001}', '\U{2002}', '\U{2003}', '\U{2004}', '\U{2005}',
          '\U{2006}', '\U{2007}', '\U{2008}', '\U{2009}', '\U{200A}', '\U{2028}',
          '\U{2029}', '\U{202F}', '\U{205F}', '\U{3000}', '\U{FEFF}'}

  predicate IsJsSpace(c: char)
  {
    c in JsSpaces
  }

  /** Every character of `s` from `lo` up to `hi` is white space. */
  predicate SpaceBetween(s: string, lo: nat, hi: nat)
    requires lo <= hi <= |s|
  {
    forall i :: lo <= i < hi ==> IsJsSpace(s[i])
  }

  predicate AllSpace(s: string)
  {
    SpaceBetween(s, 0, |s|)
  }

  /** Drops leading white space; the result is a suffix of `s`. */
  function TrimStart(s: string): (r: string)
    ensures |r| <= |s| && r == s[|s| - |r|..]
    ensures SpaceBetween(s, 0, |s| - |r|)
    ensures r == [] || !IsJsSpace(r[0])
  {
    if s == [] then s
    else if IsJsSpace(s[0]) then
      var r := TrimStart(s[1..]);
      assert forall i :: 1 <= i < |s| - |r| ==> s[i] == s[1..][i - 1];
      r
    else s
  }

  /** Drops trailing white space; the result is a prefix of `s`. */
  function TrimEnd(s: string): (r: string)
    ensures |r| <= |s| && r == s[..|r|]
    ensures SpaceBetween(s, |r|, |s|)
    ensures r == [] || !IsJsSpace(r[|r| - 1])
  {
    if s == [] then s
    else if IsJsSpace(s[|s| - 1]) then
      var r := TrimEnd(s[..|s| - 1]);
      assert forall i :: |r| <= i < |s| - 1 ==> s[i] == s[..|s| - 1][i];
      r
    else s
  }

  /** How many white-space characters `s` starts with. */
  function Lead(s: string): (n: nat)
    ensures n <= |s| && SpaceBetween(s, 0, n)
    ensures n < |s| ==> !IsJsSpace(s[n])
  {
    |s| - |TrimStart(s)|
  }

  /** `s.trim()`: the piece of `s` after its leading white space, with only
      white space cut away after it, and with no white space left at either end. */
  function Trim(s: string): (r: string)
    ensures Lead(s) + |r| <= |s| && r == s[Lead(s)..Lead(s) + |r|]
    ensures SpaceBetween(s, Lead(s) + |r|, |s|)
    ensures r == [] || (!IsJsSpace(r[0]) && !IsJsSpace(r[|r| - 1]))
  {
    var t := TrimStart(s);
    var r := TrimEnd(t);
    TrimParts(s, Lead(s), t, r);
    r
  }

  /** Cutting white space off the front of `s` (leaving `t`, from `k` on) and
      then off the back of `t` (leaving `r`) leaves the infix of `s` from `k`,
      with only white space after it and none at either end. */
  lemma TrimParts(s: string, k: nat, t: string, r: string)
    requires k <= |s| && t == s[k..]
    requires t == [] || !IsJsSpace(t[0])
    requires |r| <= |t| && r == t[..|r|] && SpaceBetween(t, |r|, |t|)
    requires r == [] || !IsJsSpace(r[|r| - 1])
    ensures k + |r| <= |s| && r == s[k..k + |r|]
    ensures SpaceBetween(s, k + |r|, |s|)
    ensures r == [] || (!IsJsSpace(r[0]) && !IsJsSpace(r[|r| - 1]))
  {
    forall i | k + |r| <= i < |s|
      ensures IsJsSpace(s[i])
    {
      assert s[i] == t[i - k];
    }
    assert r != [] ==> r[0] == t[0];
  }

  /** A string trims to the empty string exactly when it is all white space. */
  lemma TrimEmptyIff(s: string)
    ensures Trim(s) == [] <==> AllSpace(s)
  {
    if AllSpace(s) {
      assert TrimStart(s) == [];
    }
  }

  /** Trimming twice is the same as trimming once. */
  lemma TrimIdempotent(s: string)
    ensures Trim(Trim(s)) == Trim(s)
  {
    var r := Trim(s);
    assert TrimStart(r) == r by {
      if r != [] { assert !IsJsSpace(r[0]); }
    }
    assert TrimEnd(r) == r by {
      if r != [] { assert !IsJsSpace(r[|r| - 1]); }
    }
  }

  /** The number of UTF-16 code units of `s`, which is what JavaScript's
      `length` reports: characters beyond the Basic Multilingual Plane take two. */
  function Utf16Length(s: string): (n: nat)
    ensures |s| <= n <= 2 * |s|
    ensures (forall i :: 0 <= i < |s| ==> s[i] as int <= 0xFFFF) ==> n == |s|
    ensures |s| == 1 ==> (n == 2 <==> s[0] as int > 0xFFFF)
  {
    if s == [] then 0
    else (if s[0] as int > 0xFFFF then 2 else 1) + Utf16Length(s[1..])
  }

  /** The code units of a concatenation are those of its parts; with the
      one-character case this fixes the count of every string: one unit per
      character, two for each character beyond the Basic Multilingual Plane. */
  lemma {:induction false} Utf16Additive(a: string, b: string)
    ensures Utf16Length(a + b) == Utf16Length(a) + Utf16Length(b)
  {
    if a == [] {
      assert a + b == b;
    } else {
      assert (a + b)[0] == a[0] && (a + b)[1..] == a[1..] + b;
      Utf16Additive(a[1..], b);
    }
  }

  predicate IsDigit(c: char)
  {
    '0' <= c <= '9'
  }

  predicate AllDigits(s: string)
  {
    forall i :: 0 <= i < |s| ==> IsDigit(s[i])
  }

  function DigitChar(d: nat): (c: char)
    requires d < 10
    ensures IsDigit(c)
  {
    ('0' as int + d) as char
  }

  function DigitValue(c: char): (d: nat)
    requires IsDigit(c)
    ensures d < 10
  {
    (c as int - '0' as int) as nat
  }

  /** The decimal rendering JavaScript gives a non-negative integer: digits
      only, and no leading zero unless the number is zero itself. */
  function NatToString(n: nat): (r: string)
    ensures |r| >= 1 && AllDigits(r)
    ensures |r| > 1 ==> r[0] != '0'
    ensures n < 10 <==> |r| == 1
  {
    if n < 10 then [DigitChar(n)]
    else NatToString(n / 10) + [DigitChar(n % 10)]
  }

  /** Reads a string of decimal digits back as a number. */
  function ParseDigits(s: string): nat
    requires AllDigits(s)
  {
    if s == [] then 0
    else ParseDigits(s[..|s| - 1]) * 10 + DigitValue(s[|s| - 1])
  }

  /** Reading back a rendered number gives the number. */
  lemma {:induction false} ParseNatToString(n: nat)
    ensures ParseDigits(NatToString(n)) == n
  {
    var r := NatToString(n);
    if n >= 10 {
      ParseNatToString(n / 10);
      assert r[..|r| - 1] == NatToString(n / 10);
    }
  }

  /** `Number.prototype.toString` for integers: a minus sign before negatives. */
  function IntToString(n: int): (r: string)
    ensures n >= 0 ==> r == NatToString(n)
    ensures n < 0 ==> r == "-" + NatToString(-n)
  {
    if n < 0 then "-" + NatToString(-n) else NatToString(n)
  }
}

=== FILE: users.dfy ===
/** The users table and the two account routes, `POST /api/auth/register`
    and `POST /api/auth/login`, which behave the same on both servers except
    that Postgres refuses values too long for its columns (`RegisterPostgres`). */
module Users {
  import opened Values
  import opened Auth
  import Text

  /** A stored bcrypt hash, kept opaque: it matches exactly the password it
      was made from. */
  datatype Hash = Digest(secret: string)

  datatype User = User(id: UserId, username: string, email: string, hash: Hash,
                       firstName: Option<string>, lastName: Option<string>, lastLogin: Option<nat>)

  datatype Directory = Directory(users: seq<User>, clock: nat, nextId: nat)

  /** The `UNIQUE` constraints on username and email, and the id sequence. */
  predicate Valid(d: Directory)
  {
    && (forall i, j :: 0 <= i < j < |d.users| ==>
          && d.users[i].username != d.users[j].username
          && d.users[i].email != d.users[j].email
          && d.users[i].id != d.users[j].id)
    && (forall i :: 0 <= i < |d.users| ==> d.users[i].id < d.nextId)
  }

  /** `WHERE username = $1 OR email = $2`. */
  predicate Matches(x: User, username: string, email: string)
  {
    x.username == username || x.email == email
  }

  /** The first row, in table order, that the lookup `WHERE username = $1 OR
      email = $2` returns. Registration asks it with the new username and
      email; login asks it with the typed name in both places. */
  function FirstMatch(users: seq<User>, username: string, email: string): (r: Option<User>)
    ensures r.None? <==> forall x :: x in users ==> !Matches(x, username, email)
    ensures r.Some? ==> exists i :: 0 <= i < |users| && users[i] == r.value && Matches(r.value, username, email)
                                    && forall j :: 0 <= j < i ==> !Matches(users[j], username, email)
  {
    if users == [] then None
    else if Matches(users[0], username, email) then Some(users[0])
    else
      var r := FirstMatch(users[1..], username, email);
      assert forall x :: x in users <==> x == users[0] || x in users[1..];
      if r.Some? then
        var i :| 0 <= i < |users[1..]| && users[1..][i] == r.value && Matches(r.value, username, email)
                 && forall j :: 0 <= j < i ==> !Matches(users[1..][j], username, email);
        assert users[i + 1] == r.value;
        r
      else r
  }

  /** `firstName || null`: an empty or missing name is stored as NULL. */
  function OrNull(f: Option<string>): (r: Option<string>)
    ensures r.Some? <==> Filled(f)
    ensures r.Some? ==> r == f
  {
    if Filled(f) then f else None
  }

  datatype RegisterBody = RegisterBody(username: Option<string>, email: Option<string>, password: Option<string>,
                                       firstName: Option<string>, lastName: Option<string>)

  datatype LoginBody = LoginBody(username: Option<string>, password: Option<string>)

  /** The reply of both routes: the message, the user object and the token,
      reduced to the claims it signs. */
  datatype Account = Account(message: string, id: UserId, username: string, email: string,
                             firstName: Option<string>, lastName: Option<string>, token: Claims)

  /** Registration as the servers write it: the duplicate check asks only
      whether the new username is someone's username or the new email
      someone's email. A password is too short below 6 UTF-16 code units. */
  function Register(b: RegisterBody, d: Directory): (r: (Reply<Account>, Directory))
    ensures r.0.Fail? ==> r.1 == d
    ensures !(Filled(b.username) && Filled(b.email) && Filled(b.password)) ==>
              r.0 == Fail(400, "Username, email, and password are required")
    ensures Filled(b.username) && Filled(b.email) && Filled(b.password) ==>
              && (Text.Utf16Length(b.password.value) < 6 ==> r.0 == Fail(400, "Password must be at least 6 characters long"))
              && (Text.Utf16Length(b.password.value) >= 6 ==>
                    && (r.0.Ok? <==> forall x :: x in d.users ==> !Matches(x, b.username.value, b.email.value))
                    && (r.0.Fail? ==> r.0 == Fail(409, "Username or email already exists")))
    ensures r.0.Ok? ==> Created(b, d, r.0.body, r.1)
  {
    if !Filled(b.username) || !Filled(b.email) || !Filled(b.password) then
      (Fail(400, "Username, email, and password are required"), d)
    else if Text.Utf16Length(b.password.value) < 6 then
      (Fail(400, "Password must be at least 6 characters long"), d)
    else if FirstMatch(d.users, b.username.value, b.email.value).Some? then
      (Fail(409, "Username or email already exists"), d)
    else
      Insert(b, d)
  }

  /** A successful registration: one new row at the end, with the next id and
      the hash of the password, and a token for that id and username. */
  ghost predicate Created(b: RegisterBody, d: Directory, acc: Account, d': Directory)
  {
    && Filled(b.username) && Filled(b.email) && Filled(b.password)
    && d'.users == d.users + [User(d.nextId, b.username.value, b.email.value, Digest(b.password.value),
                                   OrNull(b.firstName), OrNull(b.lastName), None)]
    && acc.id == d.nextId
    && acc.token == Claims(d.nextId, b.username.value)
  }

  function Insert(b: RegisterBody, d: Directory): (r: (Reply<Account>, Directory))
    requires Filled(b.username) && Filled(b.email) && Filled(b.password)
    ensures r.0.Ok? && Created(b, d, r.0.body, r.1)
  {
    var u := User(d.nextId, b.username.value, b.email.value, Digest(b.password.value),
                  OrNull(b.firstName), OrNull(b.lastName), None);
    (Ok(Account("User registered successfully", u.id, u.username, u.email, b.firstName, b.lastName,
                Claims(u.id, u.username))),
     d.(users := d.users + [u], nextId := d.nextId + 1))
  }

  /** The Postgres `users` columns `username`, `email`, `first_name` and
      `last_name` are `VARCHAR(255)`; the bcrypt hash always fits its own. */
  predicate AccountFits(b: RegisterBody)
  {
    && (b.username.Some? ==> FitsVarchar(b.username.value, 255))
    && (b.email.Some? ==> FitsVarchar(b.email.value, 255))
    && (OrNull(b.firstName).Some? ==> FitsVarchar(OrNull(b.firstName).value, 255))
    && (OrNull(b.lastName).Some? ==> FitsVarchar(OrNull(b.lastName).value, 255))
  }

  /** Registration on Postgres: the same checks, then an INSERT that fails when
      a value is longer than its column, which the catch answers with 500 and
      nothing stored. SQLite's `TEXT` columns take any length. */
  function RegisterPostgres(b: RegisterBody, d: Directory): (r: (Reply<Account>, Directory))
    ensures r.0.Ok? <==> Register(b, d).0.Ok? && AccountFits(b)
    ensures r.0.Ok? ==> r == Register(b, d)
    ensures r.0.Fail? ==> r.1 == d
    ensures Register(b, d).0.Fail? ==> r.0 == Register(b, d).0
    ensures Register(b, d).0.Ok? && !AccountFits(b) ==> r.0 == Fail(500, "Error creating user")
  {
    var r := Register(b, d);
    if r.0.Ok? && !AccountFits(b) then (Fail(500, "Error creating user"), d) else r
  }

  /** `UPDATE users SET last_login = CURRENT_TIMESTAMP WHERE id = $1`. */
  function Touch(users: seq<User>, id: UserId, now: nat): (r: seq<User>)
    ensures |r| == |users|
    ensures forall i :: 0 <= i < |users| ==>
              r[i] == if users[i].id == id then users[i].(lastLogin := Some(now)) else users[i]
  {
    seq(|users|, i requires 0 <= i < |users| => if users[i].id == id then users[i].(lastLogin := Some(now)) else users[i])
  }

  /** Login: the typed name may be a username or an email; an unknown name and
      a wrong password get the same 401. */
  function Login(b: LoginBody, d: Directory): (r: (Reply<Account>, Directory))
    ensures r.0.Fail? ==> r.1 == d
    ensures !(Filled(b.username) && Filled(b.password)) ==> r.0 == Fail(400, "Username and password are required")
    ensures Filled(b.username) && Filled(b.password) ==>
              var found := FirstMatch(d.users, b.username.value, b.username.value);
              && (r.0.Ok? <==> found.Some? && found.value.hash == Digest(b.password.value))
              && (r.0.Fail? ==> r.0 == Fail(401, "Invalid username or password"))
              && (r.0.Ok? ==> && r.0.body.token == Claims(found.value.id, found.value.username)
                              && r.1 == Directory(Touch(d.users, found.value.id, d.clock), d.clock + 1, d.nextId))
  {
    if !Filled(b.username) || !Filled(b.password) then
      (Fail(400, "Username and password are required"), d)
    else
      match FirstMatch(d.users, b.username.value, b.username.value)
      case None => (Fail(401, "Invalid username or password"), d)
      case Some(x) =>
        if x.hash != Digest(b.password.value) then (Fail(401, "Invalid username or password"), d)
        else
          (Ok(Account("Login successful", x.id, x.username, x.email, x.firstName, x.lastName, Claims(x.id, x.username))),
           Directory(Touch(d.users, x.id, d.clock), d.clock + 1, d.nextId))
  }

  // ---------------------------------------------------------------------
  // Properties
  // ---------------------------------------------------------------------

  /** Registration keeps usernames, emails and ids unique. */
  lemma RegisterValid(b: RegisterBody, d: Directory)
    requires Valid(d)
    ensures Valid(Register(b, d).1)
  {
    if Register(b, d).0.Ok? {
      var d' := Register(b, d).1;
      var x := d'.users[|d.users|];
      assert d'.users == d.users + [x];
      assert forall y :: y in d.users ==> !Matches(y, x.username, x.email);
      forall i, j | 0 <= i < j < |d'.users|
        ensures && d'.users[i].username != d'.users[j].username
                && d'.users[i].email != d'.users[j].email
                && d'.users[i].id != d'.users[j].id
      {
        if j == |d.users| {
          assert d'.users[i] == d.users[i] && d.users[i] in d.users;
        } else {
          assert d'.users[i] == d.users[i] && d'.users[j] == d.users[j];
        }
      }
    }
  }

  /** The Postgres registration keeps the directory valid too. */
  lemma RegisterPostgresValid(b: RegisterBody, d: Directory)
    requires Valid(d)
    ensures Valid(RegisterPostgres(b, d).1)
  {
    RegisterValid(b, d);
  }

  /** A 256-character username is registered by SQLite and refused with 500 by
      Postgres, whose table is left as it was. */
  lemma LongUsernameSplitsBackends(d: Directory)
    requires forall x :: x in d.users ==> !Matches(x, seq(256, i => 'u'), "a@b")
    ensures var b := RegisterBody(Some(seq(256, i => 'u')), Some("a@b"), Some("secret"), None, None);
            && Register(b, d).0.Ok?
            && RegisterPostgres(b, d) == (Fail(500, "Error creating user"), d)
  {
  }

  /** Login changes only a last-login time, so uniqueness survives it. */
  lemma LoginValid(b: LoginBody, d: Directory)
    requires Valid(d)
    ensures Valid(Login(b, d).1)
  {
    if Login(b, d).0.Ok? {
      var found := FirstMatch(d.users, b.username.value, b.username.value);
      TouchValid(d, found.value.id, d.clock);
    }
  }

  /** Setting a last-login time keeps every id, username and email in place. */
  lemma TouchValid(d: Directory, id: UserId, now: nat)
    requires Valid(d)
    ensures Valid(Directory(Touch(d.users, id, now), now + 1, d.nextId))
  {
    var t := Touch(d.users, id, now);
    forall i | 0 <= i < |t|
      ensures t[i].id == d.users[i].id && t[i].username == d.users[i].username && t[i].email == d.users[i].email
    {
    }
  }

  /** Login does not tell an unknown name from a wrong password. */
  lemma RejectionsLookAlike(b1: LoginBody, b2: LoginBody, d: Directory)
    requires Filled(b1.username) && Filled(b1.password) && Filled(b2.username) && Filled(b2.password)
    requires FirstMatch(d.users, b1.username.value, b1.username.value).None?
    requires var f := FirstMatch(d.users, b2.username.value, b2.username.value);
             f.Some? && f.value.hash != Digest(b2.password.value)
    ensures Login(b1, d) == Login(b2, d)
  {
  }

  /** With usernames distinct from every other user's email, a new account can
      log in straight away: by its username or its email, with its password. */
  lemma RegisterThenLogin(b: RegisterBody, d: Directory)
    requires RegisterExclusive(b, d).0.Ok?
    ensures var (acc, d') := RegisterExclusive(b, d);
            && Login(LoginBody(b.username, b.password), d').0.Ok?
            && Login(LoginBody(b.username, b.password), d').0.body.token == acc.body.token
            && Login(LoginBody(b.email, b.password), d').0.Ok?
            && Login(LoginBody(b.email, b.password), d').0.body.token == acc.body.token
  {
    var d' := RegisterExclusive(b, d).1;
    var x := d'.users[|d.users|];
    FirstMatchSnoc(d.users, x, b.username.value, b.username.value);
    FirstMatchSnoc(d.users, x, b.email.value, b.email.value);
  }

  lemma {:induction false} FirstMatchSnoc(users: seq<User>, x: User, username: string, email: string)
    requires forall y :: y in users ==> !Matches(y, username, email)
    requires Matches(x, username, email)
    ensures FirstMatch(users + [x], username, email) == Some(x)
  {
    if users != [] {
      assert (users + [x])[1..] == users[1..] + [x];
      FirstMatchSnoc(users[1..], x, username, email);
    }
  }

  /** Registration that also refuses a username or email by which the login
      lookup already finds someone: the new username and email must each be
      nobody's username and nobody's email. */
  function RegisterExclusive(b: RegisterBody, d: Directory): (r: (Reply<Account>, Directory))
    ensures r.0.Fail? ==> r.1 == d
    ensures r.0.Ok? <==> && Register(b, d).0.Ok?
                         && FirstMatch(d.users, b.username.value, b.username.value).None?
                         && FirstMatch(d.users, b.email.value, b.email.value).None?
    ensures r.0.Ok? ==> r == Register(b, d)
  {
    var r := Register(b, d);
    if r.0.Ok? && (FirstMatch(d.users, b.username.value, b.username.value).Some?
                   || FirstMatch(d.users, b.email.value, b.email.value).Some?) then
      (Fail(409, "Username or email already exists"), d)
    else r
  }

  /** As written, a username equal to someone else's email passes the check,
      and the new account then cannot log in by its username: the lookup, read in
      table order, finds the older account first, whose password differs. The corrected check
      refuses the registration. (For example: ann has email `bob@mail`, and a
      new user registers with username `bob@mail`.) */
  lemma CrossFieldCollision(d: Directory, b: RegisterBody, ann: User)
    requires Valid(d) && ann in d.users
    requires Filled(b.username) && Filled(b.email) && Filled(b.password) && Text.Utf16Length(b.password.value) >= 6
    requires forall x :: x in d.users ==> !Matches(x, b.username.value, b.email.value)
    requires b.username.value == ann.email && ann.hash != Digest(b.password.value)
    ensures Register(b, d).0.Ok?
    ensures Login(LoginBody(b.username, b.password), Register(b, d).1).0 == Fail(401, "Invalid username or password")
    ensures RegisterExclusive(b, d).0 == Fail(409, "Username or email already exists")
  {
    var e := ann.email;
    var found := FirstMatch(d.users, e, e);
    assert found == Some(ann) by {
      assert Matches(ann, e, e);
      var i :| 0 <= i < |d.users| && d.users[i] == found.value;
      var k :| 0 <= k < |d.users| && d.users[k] == ann;
      assert Matches(found.value, e, e) && !Matches(found.value, e, b.email.value);
      assert i == k;
    }
    var d' := Register(b, d).1;
    var x := d'.users[|d.users|];
    assert d'.users == d.users + [x];
    FirstMatchKeeps(d.users, x, e, e);
  }

  /** The same collision without relying on the order the lookup returns its
      rows in: the rows the shared name finds are exactly the older account and
      the new one, and their hashes differ, so whichever row comes back first,
      the password of one of the two accounts is refused under that name. */
  lemma CollisionAnyOrder(d: Directory, b: RegisterBody, ann: User)
    requires Valid(d) && ann in d.users
    requires Filled(b.username) && Filled(b.email) && Filled(b.password) && Text.Utf16Length(b.password.value) >= 6
    requires forall x :: x in d.users ==> !Matches(x, b.username.value, b.email.value)
    requires b.username.value == ann.email && ann.hash != Digest(b.password.value)
    ensures |Register(b, d).1.users| == |d.users| + 1
    ensures var d' := Register(b, d).1;
            var x := d'.users[|d.users|];
            && x.username == ann.email && x.hash == Digest(b.password.value)
            && (forall y :: y in d'.users && Matches(y, ann.email, ann.email) <==> y == ann || y == x)
            && x.hash != ann.hash
  {
    var e := ann.email;
    var d' := Register(b, d).1;
    var x := d'.users[|d.users|];
    assert d'.users == d.users + [x];
    forall y | y in d'.users && Matches(y, e, e) ensures y == ann || y == x {
      if y != x {
        assert y in d.users;
        var i :| 0 <= i < |d.users| && d.users[i] == y;
        var k :| 0 <= k < |d.users| && d.users[k] == ann;
        assert !Matches(y, e, b.email.value);
        assert i == k;
      }
    }
  }

  /** Appending a row does not change a lookup that already finds someone. */
  lemma {:induction false} FirstMatchKeeps(users: seq<User>, x: User, username: string, email: string)
    requires FirstMatch(users, username, email).Some?
    ensures FirstMatch(users + [x], username, email) == FirstMatch(users, username, email)
  {
    if !Matches(users[0], username, email) {
      assert (users + [x])[1..] == users[1..] + [x];
      FirstMatchKeeps(users[1..], x, username, email);
    }
  }
}

=== FILE: values.dfy ===
/** Values shared by the server and client models: optional values, HTTP
    replies, and the JavaScript notion of a "truthy" request field. */
module Values {

  /** A possibly absent value; `None` stands for a missing, `undefined` or `null` field. */
  datatype Option<+T> = None | Some(value: T)

  /** The outcome of an HTTP handler: a 200 reply carrying a body, or an error
      status with the `{ error: ... }` message the handler sends. */
  datatype Reply<+T> = Ok(body: T) | Fail(status: nat, error: string)

  /** A JSON value as it can appear in a request body. Numbers are restricted
      to integers; every array or object is a `Composite`. */
  datatype JsValue = Undefined | Null | Bool(b: bool) | Num(n: int) | Str(s: string) | Composite

  /** JavaScript truthiness of a JSON value (`!v` is false exactly for these). */
  predicate Truthy(v: JsValue)
  {
    match v
    case Undefined => false
    case Null => false
    case Bool(b) => b
    case Num(n) => n != 0
    case Str(s) => s != ""
    case Composite => true
  }

  /** A Postgres `VARCHAR(n)` column accepts the text: at most `n` characters
      (a longer value makes the INSERT fail). SQLite's `TEXT` has no limit. */
  predicate FitsVarchar(s: string, n: nat)
  {
    |s| <= n
  }

  /** A string field passes the handlers' `!field` test: present and non-empty. */
  predicate Filled(f: Option<string>)
  {
    f.Some? && f.value != ""
  }
}
